=== FILE: README.md ===
# neutron-fuzzer `fuzz.py` in Dafny

`fuzz.py` is a load generator for an OpenStack Neutron deployment. A run has three stages:

1. It reads `openrc` into a credentials dictionary and substitutes `$NAME` / `${NAME}` references.
2. It looks up the DHCP agents, optionally filtered by `--node` or `--uuid`.
3. It creates networks `net1..netN` and subnets `sub1..subN` in parallel batches, lists them back, optionally sleeps, and then, unless `--keep` is given, deletes subnets and then networks.

This project models that core as pure functions and proves what each step guarantees.

| module | file | models |
|---|---|---|
| `Wrappers` | `wrappers.dfy` | `Option` and `Result` |
| `Text` | `text.dfy` | the Python `str` operations the script relies on: `strip`, `lstrip(chars)`, `split`, `join`, `replace`, `splitlines`, `str(int)` |
| `Dicts` | `dicts.dfy` | a Python `dict` of strings and `dict(pairs)` |
| `Credentials` | `credentials.dfy` | the `openrc` parse and the one-level variable substitution |
| `Commands` | `commands.dfy` | the four batch builders and the launch-then-wait-in-index-order fan-in |
| `Listings` | `listings.dfy` | the CSV listings: `coalesce`'s transpose and the DHCP-agent dictionary with its selector |
| `Session` | `session.dfy` | the entry point as a trace of phases |

The outside world is a parameter of `Session.Run`. It consists of:

- the lines of `openrc`;
- what `check_output` returns for an argument list;
- the exit status of each launched command;
- whether `time.sleep(float(d))` returns for the delay text `d`.

Two promises in the script's own docstrings are not kept by its code. The model follows the code:

- **Teardown is not guaranteed.** The module docstring (fuzz.py:17) says SIGINT or SIGTERM "will exit but still cleanup". No signal handler exists, and the `finally` clause (fuzz.py:183-184) is empty. An exception after the networks exist stops the run without deleting them, whatever `--keep` says.
- **There is no convergence wait or timeout.** The `coalesce` docstring (fuzz.py:106) says it waits and bails out on a timeout. The loop is commented out (fuzz.py:107-108). `coalesce` lists the networks once and prints the columns, and `timeout` is unused.

Two more behaviours of the code are worth knowing:

- **Variable substitution is one level deep.** Lookups go to the unresolved dictionary, so a chain `C -> B -> A` leaves `C` holding `$A`. Mutually referring names swap their raw values, and nothing detects a cycle.
- **`subnet-delete` is given the network name.** For index i, `delsubs` runs `quantum subnet-delete net{i}`, not `sub{i}`.

**The model describes the script with its option handling repaired.** As written, the options do not reach the entry point in the form it reads them:

- `<nets>` arrives from `docopt` as a string or `None`. So `range(1, nets + 1)` in `makenets` (fuzz.py:67) raises TypeError on every run that gets past the agent check, before `makenets` launches any process.
- `-k` is documented (fuzz.py:25) but absent from the usage pattern (fuzz.py:5). So `docopt` rejects `-k`, and its result has no `--keep` entry for fuzz.py:173 to read.
- `docopt` reads option defaults from the section headed `Options:`. Depending on its version, the options documented under `Tests:`, `Agents:` and `Networks:` may not be recognised at all. Then `opts["--node"]` (fuzz.py:136) would fail as well.

The model instead takes `<nets>` as an integer, `--keep` as a boolean, and the other options as the strings their documentation describes (`Session.Options`).

## Model

| member | source | states |
|---|---|---|
| `Text.LStrip` | fuzz.py:127 | `lstrip(chars)` drops the longest prefix made of characters from the set `chars`, and nothing else: the result is a suffix and does not start with such a character |
| `Text.RStrip` | fuzz.py:127 | the mirror image of `LStrip`, at the end of the string |
| `Text.StripChars` | fuzz.py:127 | the result of `strip` neither starts nor ends with a stripped character |
| `Text.StripCharsBetween` | fuzz.py:127 | the input is the result of `strip` with a run of stripped characters on each side |
| `Text.StripThenLStrip` | fuzz.py:127 | the result of `x.strip(chars).lstrip(more)` is a slice of `x` preceded, in order, by the whole leading run of `chars` and then a run of `more`, and followed only by characters of `chars` |
| `Text.LStripRun` | fuzz.py:127 | `lstrip` removes exactly a leading run of its characters when the next character is not one |
| `Text.RStripRun` | fuzz.py:127 | `rstrip` removes exactly a trailing run of its characters when the character before it is not one |
| `Text.LStripKeepsCount` | fuzz.py:127 | stripping characters other than `c` keeps every occurrence of `c` |
| `Text.RStripKeepsCount` | fuzz.py:127 | the same for `rstrip` |
| `Text.Count` | fuzz.py:128 | the count of `c` is zero exactly when `c` does not occur (`"=" in x`) |
| `Text.Split` | fuzz.py:127 | `split(sep)` yields one more piece than there are separators, and no piece contains the separator |
| `Text.JoinSplit` | fuzz.py:127 | joining the pieces of a split with the separator gives back the string |
| `Text.SplitJoin` | fuzz.py:109 | splitting a join of separator-free pieces gives back the pieces |
| `Text.Replace` | fuzz.py:76 | replacing `%` with text free of `%` leaves no `%`; a string without `%` is unchanged |
| `Text.ReplaceIsJoinOfSplit` | fuzz.py:76 | `s.replace(c, rep)` equals `rep.join(s.split(c))` |
| `Text.ReplaceConcat` | fuzz.py:76 | replacement distributes over concatenation |
| `Text.Decimal` | fuzz.py:76 | `str(i)` is a non-empty run of digits with no leading zero |
| `Text.DecimalRoundTrip` | fuzz.py:63 | reading back the digits of `str(i)` gives `i` |
| `Text.DecimalInjective` | fuzz.py:63 | distinct indices have distinct decimal forms |
| `Text.SplitLines` | fuzz.py:113 | `splitlines()` yields lines with no line boundary; an empty string has no lines; a string without a boundary is one line |
| `Text.SplitLinesRoundTrip` | fuzz.py:113 | splitting a newline-terminated listing of boundary-free lines gives back the lines |
| `Dicts.Lookup` | fuzz.py:131 | a key is found exactly when it is one of the dictionary's keys, and the value found belongs to that key's entry |
| `Dicts.Put` | fuzz.py:127 | assigning a key adds it to the key set; an existing key keeps its position and a new key is appended |
| `Dicts.PutThenLookup` | fuzz.py:127 | after assigning, the assigned key reads back the new value and every other key reads back its old value |
| `Dicts.PutKeepsDistinct` | fuzz.py:127 | assigning keeps the keys distinct |
| `Dicts.FromPairs` | fuzz.py:127-128 | `dict(rows)` succeeds exactly when every row has two items; otherwise the error names the first bad row and its length |
| `Dicts.FromPairsDistinct` | fuzz.py:127-128 | the keys of `dict(rows)` are distinct |
| `Dicts.LastValue` | fuzz.py:127-128 | the reference definition of what `dict(rows)[k]` should be: the value of the last pair for `k`, or nothing when no pair has `k` |
| `Dicts.FromPairsLastWins` | fuzz.py:127-128 | a lookup in `dict(rows)` gives the value of the last pair for that key, and no other keys exist |
| `Dicts.FirstIndex` | fuzz.py:131-133 | the index of the first pair for `k`: every earlier row is not such a pair |
| `Dicts.FromPairsInsertionOrder` | fuzz.py:131-133 | `dict(rows)` lists its keys in order of their first appearance, which is the order in which the substitution visits them |
| `Credentials.CleanLine` | fuzz.py:127 | `x.strip().lstrip("export ")` keeps every `=`, starts with none of the characters of `export `, and does not end with whitespace |
| `Credentials.CleanLineBetween` | fuzz.py:127 | the cleaned line is a slice of the line preceded, in order, by all of its leading whitespace and then a run of `export ` characters, and followed only by whitespace |
| `Credentials.CleanLineKeepsInnerSpace` | fuzz.py:127 | whitespace other than a space right after `export` survives cleaning, because whitespace is stripped before the `export ` characters: `export<tab>A=1` cleans to `<tab>A=1` |
| `Credentials.CleanLineOf` | fuzz.py:127 | a line `export KEY=VALUE`, with any surrounding whitespace, cleans to `KEY=VALUE` when the key starts with neither whitespace nor a character of `export ` |
| `Credentials.CleanLineEatsKeyLetters` | fuzz.py:127 | a key starting with letters of `export ` loses them: `export te<key>=<value>` cleans to `<key>=<value>`, so `export tenant=x` gives `nant=x` |
| `Credentials.Relevant` | fuzz.py:128 | the lines kept are exactly the lines that contain `=` |
| `Credentials.RelevantConcat` | fuzz.py:128 | the filter keeps the lines' order: it distributes over concatenation and keeps a single line exactly when it contains `=` |
| `Credentials.Pieces` | fuzz.py:127-128 | each kept line splits into one more piece than it has `=` |
| `Credentials.ParseFailsOnExtraEquals` | fuzz.py:126-128 | parsing `openrc` succeeds exactly when every line containing `=` contains exactly one |
| `Credentials.ParseErrorNamesFirstBadLine` | fuzz.py:126-128 | a failed parse names the first line with more than one `=` and how many pieces it gave |
| `Credentials.ParsedEntries` | fuzz.py:126-128 | each parsed row is the text before and after the single `=` of the cleaned line; a key's value comes from the last line that defines it |
| `Credentials.Reference` | fuzz.py:131-132 | a value refers to another name exactly when it starts with `$`; `$NAME` refers to `NAME` |
| `Credentials.ReferenceSpellings` | fuzz.py:131-132 | `$NAME` refers to `NAME`; `${NAME` followed by ANY last character refers to `NAME`; a bare `${` refers to the empty name |
| `Credentials.ResolveValue` | fuzz.py:131-132 | a value without a reference is kept; a reference is replaced by the raw value it names; a missing name raises KeyError for that name |
| `Credentials.ResolveEntries` | fuzz.py:131-133 | substitution succeeds exactly when every reference names a key; it keeps each key in place and resolves each value |
| `Credentials.FirstUnresolvable` | fuzz.py:131-133 | the first entry whose reference names no key |
| `Credentials.ResolveErrorNamesFirst` | fuzz.py:131-133 | the KeyError names the reference of the first unresolvable entry, in dictionary order |
| `Credentials.ResolveKeepsKeys` | fuzz.py:131-133 | substitution keeps the keys and their order, leaves values without `$` alone, and replaces a reference by the raw value of the name it refers to |
| `Credentials.ResolveFailsOnMissingKey` | fuzz.py:131-133 | substitution fails exactly when some reference names no key, and the error names the first such reference |
| `Credentials.ResolveWithoutReferences` | fuzz.py:131-133 | credentials without references come through unchanged |
| `Credentials.ResolveDoesNotDetectCycles` | fuzz.py:131-133 | `A=$B`, `B=$A` resolves to `A=$A`, `B=$B` without an error |
| `Credentials.ResolveIsOneLevel` | fuzz.py:131-133 | `A=1`, `B=$A`, `C=${B}` resolves to `C=$A`, not to `C=1` |
| `Credentials.ResolveMissingName` | fuzz.py:131-133 | `A=$Z` raises KeyError for `Z` |
| `Commands.Indices` | fuzz.py:67 | `range(1, n + 1)` is `1..n` in order, and empty for `n <= 0` |
| `Commands.NameIndexRoundTrip` | fuzz.py:62 | the name `net{i}` reads back as index `i` |
| `Commands.DecodeArgv` | fuzz.py:55-102 | every command reads back as its sub-command and the index of the network it names |
| `Commands.ArgsDetermineIndex` | fuzz.py:55-102 | two commands with the same argument list are for the same index |
| `Commands.MakeNetsOnePerIndex` | fuzz.py:55-67 | `makenets` issues, in index order, one `net-create` per index i, with the complete argument list: type, segmentation id i, physical network, `net{i}`; no two are alike |
| `Commands.MakeSubsOnePerIndex` | fuzz.py:70-80 | `makesubs` issues one `subnet-create --name sub{i} net{i}` per index, with the template's `%` replaced by i |
| `Commands.DelNetsOnePerIndex` | fuzz.py:83-91 | `delnets` issues exactly `quantum net-delete net{i}` for each index i, in index order; no two are alike |
| `Commands.DelSubsOnePerIndex` | fuzz.py:94-102 | `delsubs` issues exactly `quantum subnet-delete net{i}` for each index i, naming the network, not `sub{i}` |
| `Commands.CidrSubstitution` | fuzz.py:76 | the CIDR of index i contains no `%`; a template without `%` is used unchanged; the text between placeholders is kept |
| `Commands.CidrOnePlaceholder` | fuzz.py:76 | a one-placeholder template such as `10.0.%.0/24` keeps the text on both sides of the index |
| `Commands.LaunchAndWait` | fuzz.py:57-67 | waiting on every process in index order returns each command's exit status in index order, whatever order the processes finish in |
| `Listings.Width` | fuzz.py:109 | the length of the shortest row |
| `Listings.Transpose` | fuzz.py:109 | `zip(*rows)` has as many columns as the shortest row has items, and item k of column c is item c of row k |
| `Listings.TransposeTwice` | fuzz.py:109 | transposing twice gives back the rows cut to the shortest row |
| `Listings.CsvRowsOfListing` | fuzz.py:109-113 | reading back a listing of comma-free fields gives its pairs |
| `Listings.CoalesceOfListing` | fuzz.py:105-114 | `coalesce` of a `name,subnets` listing gives the column of names and the column of subnets, and nothing for an empty listing |
| `Listings.AgentsOfListing` | fuzz.py:140-147 | the agent dictionary maps each listed agent id to its host, taking the last host if an id repeats |
| `Listings.AgentRowMustBePair` | fuzz.py:140-147 | reading the agent listing fails exactly when a data line does not contain exactly one comma |
| `Listings.ChooseFilter` | fuzz.py:136-137 | `--node` takes precedence over `--uuid`, an empty value counts as absent, and no filter is used when neither is set |
| `Listings.SelectorRoundTrip` | fuzz.py:136-137 | the selector string names exactly the chosen filter, and it is empty exactly when there is none |
| `Listings.AgentArgsCarrySelector` | fuzz.py:136-145 | the `quantum agent-list` arguments end with the words of the sort `key` formatted into the command, and with nothing when `key` is empty |
| `Listings.CheckAgents` | fuzz.py:140-151 | the check passes exactly when the listing parses and, with a filter, is not empty; an empty list with a filter gives `NoAgents`; a malformed listing stops the run with the row at fault |
| `Session.LoadCredentials` | fuzz.py:125-133 | loading stops as malformed exactly when a line with `=` has more than one, naming the first such line and its piece count; it stops as unresolved exactly when a reference names no key, naming the first; otherwise it keeps the parsed keys in order with their references replaced |
| `Session.AgentCheck` | fuzz.py:135-151 | the agent check fails on the listing exactly when the listing command fails; it passes exactly when the listing parses and, if agents were asked for, is not empty, and then yields the credentials; it stops with `NoAgents` exactly when agents were asked for and none were listed; a listing that does not parse stops it with that row's `dict` error |
| `Session.SetupOutcome` | fuzz.py:125-151 | setup stated over `openrc` and the agent listing: malformed exactly when a `=` line holds more than one `=`; unresolved exactly when the lines parse but a reference names no key; each agent failure exactly when the credentials resolve and the listing fails, does not parse, or is empty when agents were asked for; success, with the resolved credentials, exactly otherwise |
| `Session.Course` | fuzz.py:155-176 | the steps follow the plan in order; a round completes exactly when the listing succeeds and the sleep, if any, returns; a failed listing stops it right after creation; a failed sleep stops it right after the listing |
| `Session.Round` | fuzz.py:155-176 | a round completes exactly when the network listing succeeds and the sleep, if any, returns; otherwise it names which of the two failed, and a stopped round ran exactly the creation phases, plus the listing when the sleep failed |
| `Session.RoundPhases` | fuzz.py:155-176 | the creation phases always come first and report their batches' statuses; listed columns appear only after a successful listing; a sleep phase only after a successful sleep; each delete phase reports its batch's statuses |
| `Session.Run` | fuzz.py:118-184 | a run follows the plan as a prefix; it completes exactly when setup, the network listing and the sleep (if any) all succeed, which is exactly when it ran the whole plan; nothing is created when setup fails, and the setup error is what stops the run |
| `Session.KeepNeverDeletes` | fuzz.py:173-176 | with `--keep` no delete phase ever runs |
| `Session.StoppedRunSkipsTeardown` | fuzz.py:178-184 | a run that stops early deletes nothing, even after creating resources |
| `Session.NetListFailureLeaksResources` | fuzz.py:161-163 | a failed network listing stops the run after both creation phases and before any deletion |
| `Session.SleepFailureLeaksResources` | fuzz.py:161-173 | a sleep that fails after a successful listing stops the run after both creation phases and the listing, before any deletion |
| `Session.TeardownOrder` | fuzz.py:173-176 | a completed run without `--keep` creates networks and then subnets first, and deletes subnets and then networks last, once each |
| `Session.StatusesDoNotSteer` | fuzz.py:155-176 | exit statuses never change a run's phases or outcome: a failed create is not acted on |
| `Session.CreationStatusesInIndexOrder` | fuzz.py:155-157 | the first phase reports the status of creating `net{k+1}` at position k, under the resolved credentials |

## Left out

- Processes are not modelled. `subprocess.Popen`, `check_output` and `wait()` are replaced by world parameters: the exit status of an argument list, and the output of a listing. Output sent to `/dev/null`, `universal_newlines`, and an `OSError` raised when a command cannot be launched are not modelled.
- Parallelism is not modelled. `LaunchAndWait` takes the order in which the processes finish as an input, a schedule of exit events.
- `Commands.LaunchAndWait` requires that every launched process finishes (`IsSchedule`). `proc.wait()` has no timeout, so a `quantum` command that never exits blocks the script forever. The model does not describe that hang.
- `shlex.split` is not modelled. Argument lists are built token by token. This matches `shlex` when the encapsulation type, bridge device, CIDR template, node and uuid contain no whitespace, quotes or backslashes and are not empty.
- Option parsing by `docopt` is not modelled. The options arrive already repaired, as described above, so the TypeError and KeyError the script raises as written have no counterpart. `--ping`, `--oneshot`, `--boot` and `--all` are never used by the script, so they have no counterpart either.
- `time.sleep(float(...))`: whether it returns is a world parameter, `sleeps`. It raises when `float` rejects the text, and when `time.sleep` rejects the number (negative, NaN or too large). The conversion and the duration are not modelled.
- `print` output is not modelled. This covers the progress messages, the `coalesce` columns and the caught exception's message. An exception escaping the entry point becomes the `Stopped` outcome.
- File reading is not modelled. `openrc` arrives as its lines. A missing file is not modelled.
- The returned batch statuses are discarded by the script. The model keeps them in the trace, but they do not steer the run.
- Python's `dict` hashing is replaced by an insertion-ordered list of entries with distinct keys. Iteration order, and therefore which KeyError is raised first, matches CPython's.
- Signal handling and the convergence wait are promised by the docstrings at fuzz.py:17 and fuzz.py:106 but absent from the code, so the model has neither.
- `Text.Replace`: its own contract only says that no `%` is left and that text without `%` is unchanged. The full meaning is stated by `Text.ReplaceIsJoinOfSplit`.
- `Text.SplitLines`: its own contract gives only the line-boundary facts. Its content is pinned down by `Text.SplitLinesRoundTrip`, for newline-terminated text.

=== FILE: commands.dfy ===
/** The four batch builders of fuzz.py (`makenets`, `makesubs`, `delnets`,
    `delsubs`): each turns the indices 1..N into one `quantum` command per
    index, launches them all, then waits on them in index order. Commands are
    modelled as the argument lists `shlex.split` yields for them. */
module Commands {
  import opened Wrappers
  import opened Text

  type Argv = seq<string>

  /** One command of a batch, for one index. */
  datatype Op =
    | NetCreate(index: nat, encap: string, bridge: string)
    | SubnetCreate(index: nat, cidr: string)
    | NetDelete(index: nat)
    | SubnetDelete(index: nat)

  function NetName(i: nat): string {
    "net" + Decimal(i)
  }

  function SubName(i: nat): string {
    "sub" + Decimal(i)
  }

  /** The argument list of each command, token by token. */
  function ArgsOf(op: Op): Argv {
    match op
    case NetCreate(i, encap, bridge) =>
      ["quantum", "net-create", "--provider:network_type=" + encap,
       "--provider:segmentation_id=" + Decimal(i),
       "--provider:physical_network=" + bridge, NetName(i)]
    case SubnetCreate(i, cidr) =>
      ["quantum", "subnet-create", "--name", SubName(i), NetName(i), cidr]
    case NetDelete(i) => ["quantum", "net-delete", NetName(i)]
    case SubnetDelete(i) => ["quantum", "subnet-delete", NetName(i)]
  }

  /** `range(1, n + 1)`: empty when `n` is not positive. */
  function Indices(n: int): (r: seq<nat>)
    ensures |r| == if n <= 0 then 0 else n
    ensures forall k :: 0 <= k < |r| ==> r[k] == k + 1
  {
    if n <= 0 then [] else Indices(n - 1) + [n]
  }

  /** `mask.replace("%", str(index))`. */
  function Cidr(mask: string, i: nat): string {
    Replace(mask, '%', Decimal(i))
  }

  /** `makenets`: one `net-create` per index. */
  function MakeNets(n: int, encap: string, bridge: string): seq<Op> {
    var ix := Indices(n);
    seq(|ix|, k requires 0 <= k < |ix| => NetCreate(ix[k], encap, bridge))
  }

  /** `makesubs`: one `subnet-create` per index. */
  function MakeSubs(n: int, mask: string): seq<Op> {
    var ix := Indices(n);
    seq(|ix|, k requires 0 <= k < |ix| => SubnetCreate(ix[k], Cidr(mask, ix[k])))
  }

  /** `delnets`: one `net-delete` per index. */
  function DelNets(n: int): seq<Op> {
    var ix := Indices(n);
    seq(|ix|, k requires 0 <= k < |ix| => NetDelete(ix[k]))
  }

  /** `delsubs`: one `subnet-delete` per index. */
  function DelSubs(n: int): seq<Op> {
    var ix := Indices(n);
    seq(|ix|, k requires 0 <= k < |ix| => SubnetDelete(ix[k]))
  }

  /** The index a resource name `prefix` + digits stands for. */
  function NameIndex(prefix: string, name: string): Option<nat> {
    if StartsWith(name, prefix) && |name| > |prefix| && AllDigits(name[|prefix|..])
    then Some(DigitsValue(name[|prefix|..]))
    else None
  }

  /** Reads a command back: its `quantum` sub-command and the index of the
      network token it carries. */
  function Decode(argv: Argv): Option<(string, nat)> {
    if |argv| < 3 || argv[0] != "quantum" then None
    else
      var verb := argv[1];
      var pos := if verb == "net-create" then 5 else if verb == "subnet-create" then 4 else 2;
      if pos >= |argv| then None
      else match NameIndex("net", argv[pos])
        case None => None
        case Some(i) => Some((verb, i))
  }

  /** The sub-command each kind of operation issues. */
  function Verb(op: Op): string {
    match op
    case NetCreate(_, _, _) => "net-create"
    case SubnetCreate(_, _) => "subnet-create"
    case NetDelete(_) => "net-delete"
    case SubnetDelete(_) => "subnet-delete"
  }

  lemma NameIndexRoundTrip(prefix: string, i: nat)
    ensures NameIndex(prefix, prefix + Decimal(i)) == Some(i)
  {
    var name := prefix + Decimal(i);
    assert name[..|prefix|] == prefix;
    assert name[|prefix|..] == Decimal(i);
    DecimalRoundTrip(i);
  }

  /** Every command names the network of its own index, and says what it does. */
  lemma DecodeArgv(op: Op)
    ensures Decode(ArgsOf(op)) == Some((Verb(op), op.index))
  {
    NameIndexRoundTrip("net", op.index);
  }

  /** Two commands with the same argument list are for the same index. */
  lemma ArgsDetermineIndex(a: Op, b: Op)
    requires ArgsOf(a) == ArgsOf(b)
    ensures a.index == b.index && Verb(a) == Verb(b)
  {
    DecodeArgv(a);
    DecodeArgv(b);
  }

  /** Shape shared by the four builders: one operation per index 1..n, in
      index order, every argument list naming the network of its index, and
      no two argument lists alike. */
  predicate OnePerIndex(ops: seq<Op>, n: int, verb: string) {
    && |ops| == (if n <= 0 then 0 else n)
    && (forall k :: 0 <= k < |ops| ==> Decode(ArgsOf(ops[k])) == Some((verb, k + 1)))
    && (forall k, l :: 0 <= k < l < |ops| ==> ArgsOf(ops[k]) != ArgsOf(ops[l]))
  }

  lemma OnePerIndexFromIndices(ops: seq<Op>, n: int, verb: string)
    requires |ops| == (if n <= 0 then 0 else n)
    requires forall k :: 0 <= k < |ops| ==> ops[k].index == k + 1 && Verb(ops[k]) == verb
    ensures OnePerIndex(ops, n, verb)
  {
    forall k | 0 <= k < |ops|
      ensures Decode(ArgsOf(ops[k])) == Some((verb, k + 1))
    {
      DecodeArgv(ops[k]);
    }
    forall k, l | 0 <= k < l < |ops|
      ensures ArgsOf(ops[k]) != ArgsOf(ops[l])
    {
      if ArgsOf(ops[k]) == ArgsOf(ops[l]) {
        ArgsDetermineIndex(ops[k], ops[l]);
      }
    }
  }

  /** `makenets` issues one `net-create` per index; for index i it creates
      `net{i}` with segmentation id i on the given type and physical network. */
  lemma MakeNetsOnePerIndex(n: int, encap: string, bridge: string)
    ensures OnePerIndex(MakeNets(n, encap, bridge), n, "net-create")
    ensures var ops := MakeNets(n, encap, bridge);
            forall k :: 0 <= k < |ops| ==>
              ArgsOf(ops[k]) == ["quantum", "net-create",
                                 "--provider:network_type=" + encap,
                                 "--provider:segmentation_id=" + Decimal(k + 1),
                                 "--provider:physical_network=" + bridge, NetName(k + 1)]
  {
    OnePerIndexFromIndices(MakeNets(n, encap, bridge), n, "net-create");
  }

  /** `makesubs` issues one `subnet-create` per index: `sub{i}` on `net{i}`,
      with the template's every `%` replaced by i. */
  lemma MakeSubsOnePerIndex(n: int, mask: string)
    ensures OnePerIndex(MakeSubs(n, mask), n, "subnet-create")
    ensures var ops := MakeSubs(n, mask);
            forall k :: 0 <= k < |ops| ==>
              ArgsOf(ops[k]) == ["quantum", "subnet-create", "--name", SubName(k + 1),
                               NetName(k + 1), Join(Split(mask, '%'), Decimal(k + 1))]
  {
    var ops := MakeSubs(n, mask);
    OnePerIndexFromIndices(ops, n, "subnet-create");
    forall k | 0 <= k < |ops|
      ensures ArgsOf(ops[k])[5] == Join(Split(mask, '%'), Decimal(k + 1))
    {
      ReplaceIsJoinOfSplit(mask, '%', Decimal(k + 1));
    }
  }

  /** `delnets` issues one `net-delete net{i}` per index. */
  lemma DelNetsOnePerIndex(n: int)
    ensures OnePerIndex(DelNets(n), n, "net-delete")
    ensures var ops := DelNets(n);
            forall k :: 0 <= k < |ops| ==> ArgsOf(ops[k]) == ["quantum", "net-delete", NetName(k + 1)]
  {
    OnePerIndexFromIndices(DelNets(n), n, "net-delete");
  }

  /** `delsubs` issues one `subnet-delete` per index, and as written it names
      the NETWORK `net{i}`, never the subnet `sub{i}`. */
  lemma DelSubsOnePerIndex(n: int)
    ensures OnePerIndex(DelSubs(n), n, "subnet-delete")
    ensures var ops := DelSubs(n);
            forall k :: 0 <= k < |ops| ==>
              && ArgsOf(ops[k]) == ["quantum", "subnet-delete", NetName(k + 1)]
              && ArgsOf(ops[k])[2] != SubName(k + 1)
  {
    OnePerIndexFromIndices(DelSubs(n), n, "subnet-delete");
  }

  /** The CIDR of index i: no `%` is left, a template without `%` is used
      as is, and the text between placeholders is kept. */
  lemma CidrSubstitution(mask: string, i: nat)
    ensures '%' !in Cidr(mask, i)
    ensures '%' !in mask ==> Cidr(mask, i) == mask
    ensures Cidr(mask, i) == Join(Split(mask, '%'), Decimal(i))
  {
    assert '%' !in Decimal(i);
    ReplaceIsJoinOfSplit(mask, '%', Decimal(i));
  }

  /** A template with one placeholder keeps the text on both sides of it:
      `10.0.%.0/24` gives `10.0.7.0/24` for index 7. */
  lemma CidrOnePlaceholder(before: string, after: string, i: nat)
    requires '%' !in before && '%' !in after
    ensures Cidr(before + "%" + after, i) == before + Decimal(i) + after
  {
    ReplaceConcat(before + "%", after, '%', Decimal(i));
    ReplaceConcat(before, "%", '%', Decimal(i));
  }

  /** The argument lists a batch launches, in index order. */
  function ArgLists(ops: seq<Op>): (cmds: seq<Argv>)
    ensures |cmds| == |ops|
    ensures forall k :: 0 <= k < |ops| ==> cmds[k] == ArgsOf(ops[k])
  {
    seq(|ops|, k requires 0 <= k < |ops| => ArgsOf(ops[k]))
  }

  /** The exit statuses of a batch, in index order: what the list
      comprehension `[proc.wait() for proc in ...]` returns. */
  function Batch(cmds: seq<Argv>, exitOf: Argv -> int): (r: seq<int>)
    ensures |r| == |cmds|
  {
    seq(|cmds|, k requires 0 <= k < |cmds| => exitOf(cmds[k]))
  }

  /** A process of the batch finishing with a status. */
  datatype Exit = Exit(proc: nat, status: int)

  /** `events` lists the completions of the launched processes in the order
      they happen: every process finishes, each with the status the
      environment gives its command. */
  predicate IsSchedule(events: seq<Exit>, cmds: seq<Argv>, exitOf: Argv -> int) {
    && (forall t :: 0 <= t < |events| ==> Reports(events[t], cmds, exitOf))
    && (forall k :: 0 <= k < |cmds| ==> FinishesFrom(events, 0, k))
  }

  /** The completion `e` is of a process of the batch, with its true status. */
  predicate Reports(e: Exit, cmds: seq<Argv>, exitOf: Argv -> int) {
    e.proc < |cmds| && e.status == exitOf(cmds[e.proc])
  }

  /** Process `k` finishes at or after the `from`-th completion. */
  predicate FinishesFrom(events: seq<Exit>, from: nat, k: nat) {
    exists t :: from <= t < |events| && events[t].proc == k
  }

  /** The statuses collected so far are the true ones. */
  predicate Collected(reaped: map<nat, int>, cmds: seq<Argv>, exitOf: Argv -> int) {
    forall p :: p in reaped ==> p < |cmds| && reaped[p] == exitOf(cmds[p])
  }

  /** The fan-out/fan-in of one batch: all processes run at once and finish
      in the order of `events`; `proc.wait()` on process k blocks until k has
      finished, and the statuses come back in index order whatever the order
      of completion. */
  method LaunchAndWait(cmds: seq<Argv>, exitOf: Argv -> int, events: seq<Exit>)
    returns (statuses: seq<int>)
    requires IsSchedule(events, cmds, exitOf)
    ensures statuses == Batch(cmds, exitOf)
  {
    var reaped: map<nat, int> := map[];
    var t := 0;
    statuses := [];
    var k := 0;
    while k < |cmds|
      invariant 0 <= k <= |cmds| && 0 <= t <= |events|
      invariant forall u :: 0 <= u < t ==> events[u].proc in reaped
      invariant Collected(reaped, cmds, exitOf)
      invariant statuses == Batch(cmds[..k], exitOf)
    {
      assert k !in reaped ==> FinishesFrom(events, t, k) by {
        if k !in reaped {
          assert FinishesFrom(events, 0, k);
          var u :| 0 <= u < |events| && events[u].proc == k;
          assert u >= t;
        }
      }
      while k !in reaped
        invariant 0 <= t <= |events|
        invariant forall u :: 0 <= u < t ==> events[u].proc in reaped
        invariant Collected(reaped, cmds, exitOf)
        invariant k !in reaped ==> FinishesFrom(events, t, k)
        decreases |events| - t
      {
        assert Reports(events[t], cmds, exitOf);
        reaped := reaped[events[t].proc := events[t].status];
        t := t + 1;
        assert k !in reaped ==> FinishesFrom(events, t, k) by {
          if k !in reaped {
            var u :| t - 1 <= u < |events| && events[u].proc == k;
            assert u != t - 1;
          }
        }
      }
      assert cmds[..k + 1] == cmds[..k] + [cmds[k]];
      statuses := statuses + [reaped[k]];
      k := k + 1;
    }
    assert cmds[..k] == cmds;
  }
}

=== FILE: credentials.dfy ===
/** The `openrc` credentials of fuzz.py: every line holding `=` becomes a
    key/value pair after stripping whitespace and the characters of
    `export `, and values of the form `$NAME` or `${NAME}` are then replaced
    by the raw value of NAME, one level deep. */
module Credentials {
  import opened Wrappers
  import opened Text
  import opened Dicts

  /** `lstrip("export ")` removes any leading run of THESE characters; it does
      not remove the word `export `. */
  const ExportChars: set<char> := {'e', 'x', 'p', 'o', 'r', 't', ' '}

  /** `x.strip().lstrip("export ")`: every `=` is kept, and the result neither
      starts with a character of `export ` nor ends with whitespace. */
  function CleanLine(x: string): (r: string)
    ensures Count(r, '=') == Count(x, '=')
    ensures |r| > 0 ==> r[0] !in ExportChars && r[|r| - 1] !in Whitespace
  {
    EqualsIsNotSpace();
    LStripKeepsCount(x, Whitespace, '=');
    RStripKeepsCount(LStrip(x, Whitespace), Whitespace, '=');
    LStripKeepsCount(Strip(x), ExportChars, '=');
    LStrip(Strip(x), ExportChars)
  }

  lemma EqualsIsNotSpace()
    ensures '=' !in Whitespace && '=' !in ExportChars
  {
  }

  /** What cleaning removed from a line, in order: the result is a slice of
      it, preceded by all of the line's leading whitespace and then a run of
      `export ` characters, and followed only by whitespace. */
  lemma CleanLineBetween(x: string)
    ensures exists i, j :: Peeled(x, CleanLine(x), i, j, Whitespace, ExportChars, Whitespace)
  {
    var r := LStrip(StripChars(x, Whitespace), ExportChars);
    assert CleanLine(x) == r;
    StripThenLStrip(x, Whitespace, ExportChars);
    var i, j :| Peeled(x, r, i, j, Whitespace, ExportChars, Whitespace);
  }

  /** Whitespace after `export` other than a space is not stripped: it is
      reached only after the whitespace strip, so `export\tA=1` becomes
      `\tA=1`. */
  lemma CleanLineKeepsInnerSpace(c: char, key: string, value: string)
    requires c in Whitespace && c !in ExportChars
    requires |value| > 0 ==> value[|value| - 1] !in Whitespace
    ensures CleanLine("export" + [c] + key + "=" + value) == [c] + key + "=" + value
  {
    var p := "export";
    var kv := [c] + key + "=" + value;
    var line := p + kv;
    assert "export" + [c] + key + "=" + value == line;
    assert kv[|kv| - 1] !in Whitespace by {
      if |value| == 0 {
        assert kv[|kv| - 1] == '=';
      } else {
        assert kv[|kv| - 1] == value[|value| - 1];
      }
    }
    assert line[0] == 'e' && line[|line| - 1] == kv[|kv| - 1];
    assert AllIn(p, ExportChars) && kv[0] == c;
    assert "" + (line + "") == line;
    CleanLineOfParts("", p, kv, "");
  }

  /** A line `export KEY=VALUE` comes out as `KEY=VALUE` whatever surrounds it
      ... unless the key starts with letters of `export `: those go too. */
  lemma CleanLineOf(lead: string, p: string, key: string, value: string, trail: string)
    requires AllIn(lead, Whitespace) && AllIn(p, ExportChars) && AllIn(trail, Whitespace)
    requires |p| > 0 ==> p[0] !in Whitespace
    requires |key| > 0 ==> key[0] !in Whitespace && key[0] !in ExportChars
    requires |value| > 0 ==> value[|value| - 1] !in Whitespace
    ensures CleanLine(lead + p + key + "=" + value + trail) == key + "=" + value
  {
    var kv := key + "=" + value;
    var body := p + kv;
    PairEnds(key, value);
    assert body[0] !in Whitespace by {
      if |p| == 0 {
        assert body == kv;
      } else {
        assert body[0] == p[0];
      }
    }
    assert body[|body| - 1] == kv[|kv| - 1];
    assert lead + p + key + "=" + value + trail == lead + (body + trail);
    CleanLineOfParts(lead, p, kv, trail);
  }

  lemma CleanLineOfParts(lead: string, p: string, kv: string, trail: string)
    requires AllIn(lead, Whitespace) && AllIn(p, ExportChars) && AllIn(trail, Whitespace)
    requires |kv| > 0 && kv[0] !in ExportChars && (p + kv)[0] !in Whitespace
    requires (p + kv)[|p + kv| - 1] !in Whitespace
    ensures CleanLine(lead + (p + kv + trail)) == kv
  {
    LStripRun(lead, p + kv + trail, Whitespace);
    RStripRun(p + kv, trail, Whitespace);
    LStripRun(p, kv, ExportChars);
  }

  /** `key=value` starts with neither whitespace nor a character of
      `export ` and does not end with whitespace, given that its parts do not. */
  lemma PairEnds(key: string, value: string)
    requires |key| > 0 ==> key[0] !in Whitespace && key[0] !in ExportChars
    requires |value| > 0 ==> value[|value| - 1] !in Whitespace
    ensures var kv := key + "=" + value;
            && kv[0] !in ExportChars && kv[0] !in Whitespace
            && kv[|kv| - 1] !in Whitespace
  {
    var kv := key + "=" + value;
    if |key| == 0 {
      assert kv[0] == '=';
    } else {
      assert kv[0] == key[0];
    }
    if |value| == 0 {
      assert kv[|kv| - 1] == '=';
    } else {
      assert kv[|kv| - 1] == value[|value| - 1];
    }
  }

  /** A key that starts with letters of `export ` loses them along with the
      word: `export tenant=x` becomes `nant=x`. */
  lemma CleanLineEatsKeyLetters(key: string, value: string)
    requires |key| > 0 ==> key[0] !in Whitespace && key[0] !in ExportChars
    requires |value| > 0 ==> value[|value| - 1] !in Whitespace
    ensures CleanLine("export te" + key + "=" + value) == key + "=" + value
  {
    var p := "export te";
    var kv := key + "=" + value;
    var line := p + kv;
    assert "export te" + key + "=" + value == line;
    PairEnds(key, value);
    assert line[0] == 'e' && line[|line| - 1] == kv[|kv| - 1];
    assert Strip(line) == line;
    assert AllIn(p, ExportChars);
    LStripRun(p, kv, ExportChars);
  }

  /** `[x for x in lines if "=" in x]`. */
  function Relevant(lines: seq<string>): (r: seq<string>)
    ensures forall x :: x in r <==> x in lines && '=' in x
  {
    if |lines| == 0 then []
    else
      var rest := Relevant(lines[1..]);
      assert forall x :: x in lines <==> x == lines[0] || x in lines[1..] by {
        assert lines == [lines[0]] + lines[1..];
      }
      if '=' in lines[0] then [lines[0]] + rest else rest
  }

  /** The filter keeps the lines' order: it works line by line, keeping a
      line exactly when it holds `=`. */
  lemma {:induction false} RelevantConcat(a: seq<string>, b: seq<string>)
    ensures Relevant(a + b) == Relevant(a) + Relevant(b)
    ensures Relevant([]) == []
    ensures forall x :: Relevant([x]) == if '=' in x then [x] else []
  {
    if |a| > 0 {
      assert (a + b)[1..] == a[1..] + b;
      RelevantConcat(a[1..], b);
    } else {
      assert a + b == b;
    }
    forall x
      ensures Relevant([x]) == if '=' in x then [x] else []
    {
      assert [x][1..] == [];
    }
  }

  /** The sequences `x.strip().lstrip("export ").split("=")` that `dict` receives. */
  function Pieces(lines: seq<string>): (rows: seq<seq<string>>)
    ensures |rows| == |Relevant(lines)|
    ensures forall i :: 0 <= i < |rows| ==>
              |rows[i]| == Count(Relevant(lines)[i], '=') + 1
  {
    var rel := Relevant(lines);
    seq(|rel|, i requires 0 <= i < |rel| => Split(CleanLine(rel[i]), '='))
  }

  /** The first `creds` dictionary, built from the lines of `openrc`, before
      substitution. */
  function Parse(lines: seq<string>): Result<Dict, DictError> {
    FromPairs(Pieces(lines))
  }

  /** Parsing fails exactly when some line holding `=` holds more than one. */
  lemma ParseFailsOnExtraEquals(lines: seq<string>)
    ensures Parse(lines).Success? <==>
              forall x :: x in lines && '=' in x ==> Count(x, '=') == 1
  {
    var rel := Relevant(lines);
    var rows := Pieces(lines);
    if Parse(lines).Success? {
      forall x | x in lines && '=' in x
        ensures Count(x, '=') == 1
      {
        var i :| 0 <= i < |rel| && rel[i] == x;
        assert |rows[i]| == 2;
      }
    } else {
      var n := Parse(lines).error.element;
      assert |rows[n]| != 2;
      assert rel[n] in lines && '=' in rel[n];
    }
  }

  /** A failing parse names, as element number, the first line holding `=`
      that does not split into exactly two pieces, and how many it gave. */
  lemma ParseErrorNamesFirstBadLine(lines: seq<string>)
    requires Parse(lines).Failure?
    ensures var e := Parse(lines).error;
            var rel := Relevant(lines);
            && e.element < |rel|
            && e.length == Count(rel[e.element], '=') + 1 >= 3
            && forall i :: 0 <= i < e.element ==> Count(rel[i], '=') == 1
  {
    var rel := Relevant(lines);
    var e := Parse(lines).error;
    assert rel[e.element] in rel;
  }

  /** On success, each key is the text before the only `=` of its cleaned
      line, and its value is the text after that `=` on the LAST line that
      has the key. */
  lemma ParsedEntries(lines: seq<string>, k: string)
    requires Parse(lines).Success?
    ensures var rows := Pieces(lines);
            && (forall i :: 0 <= i < |rows| ==>
                  |rows[i]| == 2
                  && rows[i][0] + "=" + rows[i][1] == CleanLine(Relevant(lines)[i])
                  && '=' !in rows[i][0] && '=' !in rows[i][1])
            && Lookup(Parse(lines).value, k) == LastValue(rows, k)
  {
    var rel := Relevant(lines);
    var rows := Pieces(lines);
    forall i | 0 <= i < |rows|
      ensures rows[i][0] + "=" + rows[i][1] == CleanLine(rel[i])
    {
      JoinSplit(CleanLine(rel[i]), '=');
    }
    FromPairsLastWins(rows, k);
  }

  /** The KeyError raised while substituting. */
  datatype ResolveError = MissingKey(name: string)

  /** The name a value refers to: `v[2:-1]` for `${...}`, `v[1:]` for `$...`,
      nothing when `v` does not start with `$`. */
  function Reference(v: string): (r: Option<string>)
    ensures r.None? <==> !StartsWith(v, "$")
    ensures StartsWith(v, "$") && !StartsWith(v, "${") ==> r == Some(v[1..])
  {
    if |v| == 0 || v[0] != '$' then None
    else if |v| == 1 || v[1] != '{' then Some(v[1..])
    else Some(if |v| >= 3 then v[2..|v| - 1] else "")
  }

  /** Both spellings of a reference name the variable they wrap. The braced
      form drops its last character whatever it is (`${A)` names `A` too), and
      a bare `${` names the empty string. */
  lemma ReferenceSpellings(name: string, c: char)
    ensures Reference("${" + name + [c]) == Some(name)
    ensures Reference("${") == Some("")
    ensures |name| == 0 || name[0] != '{' ==> Reference("$" + name) == Some(name)
    ensures Reference("$" + name).Some?
  {
    var braced := "${" + name + [c];
    assert braced[..1] == "$" && braced[..2] == "${";
    assert braced[2..|braced| - 1] == name;
    var bare := "$" + name;
    assert bare[..1] == "$" && bare[1..] == name;
    if |name| > 0 && name[0] != '{' {
      assert bare[..2] != "${" by {
        assert bare[..2][1] == name[0];
      }
    }
  }

  /** A value whose reference, if it has one, names a key of `raw`. */
  predicate Resolvable(raw: Dict, v: string) {
    Reference(v).None? || Reference(v).value in Keys(raw)
  }

  /** One value of the second `creds` comprehension, looked up in `raw`. */
  function ResolveValue(raw: Dict, v: string): (r: Result<string, ResolveError>)
    ensures r.Success? <==> Resolvable(raw, v)
    ensures r.Failure? ==> r.error == MissingKey(Reference(v).value)
    ensures r.Success? && Reference(v).None? ==> r.value == v
    ensures r.Success? && Reference(v).Some? ==>
              Entry(Reference(v).value, r.value) in raw
  {
    match Reference(v)
    case None => Success(v)
    case Some(name) =>
      match Lookup(raw, name)
      case None => Failure(MissingKey(name))
      case Some(value) => Success(value)
  }

  /** The comprehension over the entries `es`, every lookup going to `raw`;
      the first entry that cannot be resolved raises. */
  function ResolveEntries(raw: Dict, es: seq<Entry>): (r: Result<Dict, ResolveError>)
    ensures r.Success? <==> forall i :: 0 <= i < |es| ==> Resolvable(raw, es[i].value)
    ensures r.Success? ==>
              && |r.value| == |es|
              && forall i :: 0 <= i < |es| ==>
                   && r.value[i].key == es[i].key
                   && Success(r.value[i].value) == ResolveValue(raw, es[i].value)
  {
    if |es| == 0 then Success([])
    else
      var head := ResolveValue(raw, es[0].value);
      if head.Failure? then Failure(head.error)
      else
        var rest := ResolveEntries(raw, es[1..]);
        if rest.Failure? then Failure(rest.error)
        else
          var r := [Entry(es[0].key, head.value)] + rest.value;
          assert forall i :: 1 <= i < |es| ==> r[i] == rest.value[i - 1] && es[i] == es[1..][i - 1];
          Success(r)
  }

  /** Position of the first entry whose reference names no key (|es| if none). */
  function FirstUnresolvable(raw: Dict, es: seq<Entry>): (n: nat)
    ensures n <= |es|
    ensures n < |es| ==> !Resolvable(raw, es[n].value)
    ensures forall j :: 0 <= j < n ==> Resolvable(raw, es[j].value)
  {
    if |es| == 0 then 0
    else if !Resolvable(raw, es[0].value) then 0
    else 1 + FirstUnresolvable(raw, es[1..])
  }

  /** A failed substitution raises KeyError for the name referenced by the
      first unresolvable entry, in dictionary order. */
  lemma {:induction false} ResolveErrorNamesFirst(raw: Dict, es: seq<Entry>)
    requires ResolveEntries(raw, es).Failure?
    ensures var n := FirstUnresolvable(raw, es);
            && n < |es|
            && ResolveEntries(raw, es).error == MissingKey(Reference(es[n].value).value)
  {
    if ResolveValue(raw, es[0].value).Success? {
      ResolveErrorNamesFirst(raw, es[1..]);
    }
  }

  /** The second `creds` comprehension: substitute every reference against
      the UNRESOLVED map. */
  function Resolve(raw: Dict): Result<Dict, ResolveError> {
    ResolveEntries(raw, raw)
  }

  /** Substitution keeps the keys in place, leaves a value without `$` alone
      and replaces a reference by the raw value it names. */
  lemma ResolveKeepsKeys(raw: Dict)
    requires Resolve(raw).Success?
    ensures var r := Resolve(raw).value;
            && |r| == |raw|
            && Keys(r) == Keys(raw)
            && forall i :: 0 <= i < |raw| ==>
                 && r[i].key == raw[i].key
                 && (!StartsWith(raw[i].value, "$") ==> r[i].value == raw[i].value)
                 && (StartsWith(raw[i].value, "$") ==>
                       Entry(Reference(raw[i].value).value, r[i].value) in raw)
  {
    var r := Resolve(raw).value;
    SameKeysSameKeySet(r, raw);
  }

  lemma {:induction false} SameKeysSameKeySet(a: Dict, b: Dict)
    requires |a| == |b|
    requires forall i :: 0 <= i < |a| ==> a[i].key == b[i].key
    ensures Keys(a) == Keys(b)
  {
    if |a| > 0 {
      SameKeysSameKeySet(a[1..], b[1..]);
    }
  }

  /** Every reference among the values names a key of the dictionary. */
  predicate ReferencesDefined(raw: Dict) {
    forall i :: 0 <= i < |raw| && Reference(raw[i].value).Some? ==>
      Reference(raw[i].value).value in Keys(raw)
  }

  /** Substitution succeeds exactly when every reference names a key; when it
      fails, the missing name is that of the first unresolvable entry. */
  lemma ResolveFailsOnMissingKey(raw: Dict)
    ensures Resolve(raw).Success? <==> ReferencesDefined(raw)
    ensures Resolve(raw).Failure? ==>
              var n := FirstUnresolvable(raw, raw);
              && n < |raw|
              && Reference(raw[n].value).Some?
              && Reference(raw[n].value).value !in Keys(raw)
              && Resolve(raw).error == MissingKey(Reference(raw[n].value).value)
  {
    if Resolve(raw).Failure? {
      ResolveErrorNamesFirst(raw, raw);
    }
  }

  /** Credentials without references come through substitution unchanged. */
  lemma ResolveWithoutReferences(raw: Dict)
    requires forall i :: 0 <= i < |raw| ==> !StartsWith(raw[i].value, "$")
    ensures Resolve(raw) == Success(raw)
  {
    assert forall i :: 0 <= i < |raw| ==> Reference(raw[i].value).None?;
    assert Resolve(raw).Success?;
    var r := Resolve(raw).value;
    forall i | 0 <= i < |raw|
      ensures r[i] == raw[i]
    {
      assert ResolveValue(raw, raw[i].value) == Success(raw[i].value);
    }
    assert r == raw;
  }

  /** Only one level is substituted: two names that refer to each other swap
      their raw values and stay references; nothing reports a cycle. */
  lemma ResolveDoesNotDetectCycles()
    ensures Resolve([Entry("A", "$B"), Entry("B", "$A")])
         == Success([Entry("A", "$A"), Entry("B", "$B")])
  {
    var raw := [Entry("A", "$B"), Entry("B", "$A")];
    ReferenceSpellings("A", '}');
    ReferenceSpellings("B", '}');
    assert "$" + "A" == "$A" && "$" + "B" == "$B";
    assert ResolveValue(raw, "$B") == Success("$A");
    assert ResolveValue(raw, "$A") == Success("$B");
    var r := Resolve(raw).value;
    assert r[0] == Entry("A", "$A") && r[1] == Entry("B", "$B");
    assert r == [Entry("A", "$A"), Entry("B", "$B")];
  }

  /** A chain of references is followed one step only: `C` refers to `B`,
      which refers to `A`, and `C` ends up holding the reference `$A`. */
  lemma ResolveIsOneLevel()
    ensures Resolve([Entry("A", "1"), Entry("B", "$A"), Entry("C", "${B}")])
         == Success([Entry("A", "1"), Entry("B", "1"), Entry("C", "$A")])
  {
    var raw := [Entry("A", "1"), Entry("B", "$A"), Entry("C", "${B}")];
    ReferenceSpellings("A", '}');
    ReferenceSpellings("B", '}');
    assert "$" + "A" == "$A" && "${" + "B" + "}" == "${B}";
    assert ResolveValue(raw, "1") == Success("1");
    assert ResolveValue(raw, "$A") == Success("1");
    assert ResolveValue(raw, "${B}") == Success("$A");
    var r := Resolve(raw).value;
    assert r[0] == Entry("A", "1") && r[1] == Entry("B", "1") && r[2] == Entry("C", "$A");
    assert r == [Entry("A", "1"), Entry("B", "1"), Entry("C", "$A")];
  }

  /** A reference to a name the file does not define raises KeyError. */
  lemma ResolveMissingName()
    ensures Resolve([Entry("A", "$Z")]) == Failure(MissingKey("Z"))
  {
    ReferenceSpellings("Z", '}');
    assert "$" + "Z" == "$Z";
  }
}

=== FILE: dicts.dfy ===
/** Python's `dict` of strings, as the fuzzer builds it with `dict(pairs)`:
    an insertion-ordered list of entries with distinct keys, where a later
    assignment to an existing key overwrites its value in place. */
module Dicts {
  import opened Wrappers

  datatype Entry = Entry(key: string, value: string)

  type Dict = seq<Entry>

  /** `dict(iterable)` raises ValueError when element #n of the iterable
      does not have exactly two items. */
  datatype DictError = BadElement(element: nat, length: nat)

  function Keys(d: Dict): set<string> {
    if |d| == 0 then {} else {d[0].key} + Keys(d[1..])
  }

  predicate DistinctKeys(d: Dict) {
    forall i, j :: 0 <= i < j < |d| ==> d[i].key != d[j].key
  }

  /** `d.get(k)`. */
  function Lookup(d: Dict, k: string): (r: Option<string>)
    ensures r.Some? <==> k in Keys(d)
    ensures r.Some? ==> Entry(k, r.value) in d
  {
    if |d| == 0 then None
    else if d[0].key == k then Some(d[0].value)
    else Lookup(d[1..], k)
  }

  /** `d[k] = v`: overwrites an existing key where it stands, otherwise appends. */
  function Put(d: Dict, k: string, v: string): (r: Dict)
    ensures Keys(r) == Keys(d) + {k}
    ensures k in Keys(d) ==> |r| == |d|
    ensures k !in Keys(d) ==> r == d + [Entry(k, v)]
    ensures forall p :: 0 <= p < |d| ==> r[p].key == d[p].key
  {
    if |d| == 0 then [Entry(k, v)]
    else if d[0].key == k then
      var r := [Entry(k, v)] + d[1..];
      assert r[1..] == d[1..];
      r
    else
      var rest := Put(d[1..], k, v);
      var r := [d[0]] + rest;
      assert r[1..] == rest;
      assert Keys(r) == {d[0].key} + Keys(rest);
      r
  }

  /** Reading a key back after assigning one: the assigned key gives the new
      value, every other key what it gave before. */
  lemma {:induction false} PutThenLookup(d: Dict, k: string, v: string, k': string)
    ensures Lookup(Put(d, k, v), k') == if k' == k then Some(v) else Lookup(d, k')
  {
    if |d| > 0 && d[0].key != k {
      PutThenLookup(d[1..], k, v, k');
      assert Put(d, k, v)[1..] == Put(d[1..], k, v);
    }
  }

  /** Every key of a dict is the key of one of its entries, and conversely. */
  lemma {:induction false} KeysAreEntryKeys(d: Dict)
    ensures forall k :: k in Keys(d) <==> exists p :: 0 <= p < |d| && d[p].key == k
  {
    if |d| > 0 {
      KeysAreEntryKeys(d[1..]);
      forall k | k in Keys(d[1..])
        ensures exists p :: 0 <= p < |d| && d[p].key == k
      {
        var p :| 0 <= p < |d[1..]| && d[1..][p].key == k;
        assert d[p + 1].key == k;
      }
      forall k, p | 0 <= p < |d| && d[p].key == k
        ensures k in Keys(d)
      {
        if p > 0 {
          assert d[1..][p - 1].key == k;
        }
      }
    }
  }

  /** Assigning a key keeps the keys of a dict distinct. */
  lemma {:induction false} PutKeepsDistinct(d: Dict, k: string, v: string)
    requires DistinctKeys(d)
    ensures DistinctKeys(Put(d, k, v))
  {
    var r := Put(d, k, v);
    if k !in Keys(d) {
      KeysAreEntryKeys(d);
      assert forall p :: 0 <= p < |d| ==> r[p] == d[p];
    } else {
      forall p, q | 0 <= p < q < |r|
        ensures r[p].key != r[q].key
      {
        assert r[p].key == d[p].key && r[q].key == d[q].key;
      }
    }
  }

  /** Python's `dict(rows)`: each row must be a key/value pair; rows are
      entered in order, so the first malformed row raises and a later pair
      for a key overwrites an earlier one. */
  function FromPairs(rows: seq<seq<string>>): (r: Result<Dict, DictError>)
    ensures r.Success? <==> forall i :: 0 <= i < |rows| ==> |rows[i]| == 2
    ensures r.Failure? ==> var n := r.error.element;
                           && n < |rows| && |rows[n]| != 2 && r.error.length == |rows[n]|
                           && forall i :: 0 <= i < n ==> |rows[i]| == 2
  {
    if |rows| == 0 then Success([])
    else
      var init := rows[..|rows| - 1];
      var last := rows[|rows| - 1];
      assert forall i :: 0 <= i < |init| ==> init[i] == rows[i];
      var prior := FromPairs(init);
      if prior.Failure? then
        assert rows[prior.error.element] == init[prior.error.element];
        prior
      else if |last| != 2 then Failure(BadElement(|rows| - 1, |last|))
      else Success(Assign(prior.value, last))
  }

  /** Entering one key/value row into a dict. */
  function Assign(d: Dict, row: seq<string>): Dict
    requires |row| == 2
  {
    Put(d, row[0], row[1])
  }

  /** `dict(rows)` holds each key once. */
  lemma {:induction false} FromPairsDistinct(rows: seq<seq<string>>)
    requires FromPairs(rows).Success?
    ensures DistinctKeys(FromPairs(rows).value)
  {
    if |rows| > 0 {
      var init := rows[..|rows| - 1];
      var last := rows[|rows| - 1];
      assert forall i :: 0 <= i < |init| ==> init[i] == rows[i];
      FromPairsDistinct(init);
      PutKeepsDistinct(FromPairs(init).value, last[0], last[1]);
    }
  }

  /** The value of the last pair for `k` in `rows`, if any: what `dict(rows)[k]`
      is meant to be, defined without building the dict. */
  function LastValue(rows: seq<seq<string>>, k: string): (r: Option<string>)
    ensures r.None? <==> forall i :: 0 <= i < |rows| && |rows[i]| == 2 ==> rows[i][0] != k
    ensures r.Some? ==> exists i :: && 0 <= i < |rows| && |rows[i]| == 2
                                   && rows[i][0] == k && rows[i][1] == r.value
                                   && forall j :: i < j < |rows| && |rows[j]| == 2 ==> rows[j][0] != k
  {
    if |rows| == 0 then None
    else if |rows[|rows| - 1]| == 2 && rows[|rows| - 1][0] == k then Some(rows[|rows| - 1][1])
    else
      var init := rows[..|rows| - 1];
      assert forall i :: 0 <= i < |init| ==> init[i] == rows[i];
      LastValue(init, k)
  }

  /** `dict(rows)` maps every key to the value of its LAST pair, and has no
      other keys. */
  lemma {:induction false} FromPairsLastWins(rows: seq<seq<string>>, k: string)
    requires FromPairs(rows).Success?
    ensures Lookup(FromPairs(rows).value, k) == LastValue(rows, k)
  {
    if |rows| > 0 {
      var init := rows[..|rows| - 1];
      var last := rows[|rows| - 1];
      FromPairsLastWins(init, k);
      PutThenLookup(FromPairs(init).value, last[0], last[1], k);
    }
  }

  /** Index of the first pair for `k` in `rows` (|rows| if there is none). */
  function FirstIndex(rows: seq<seq<string>>, k: string): (n: nat)
    ensures n <= |rows|
    ensures n < |rows| ==> |rows[n]| == 2 && rows[n][0] == k
    ensures forall i :: 0 <= i < n ==> !(|rows[i]| == 2 && rows[i][0] == k)
  {
    if |rows| == 0 then 0
    else if |rows[0]| == 2 && rows[0][0] == k then 0
    else 1 + FirstIndex(rows[1..], k)
  }

  /** Appending a row leaves every earlier first index alone. */
  lemma {:induction false} FirstIndexExtend(rows: seq<seq<string>>, k: string)
    requires |rows| > 0
    ensures var init := rows[..|rows| - 1];
            FirstIndex(init, k) < |init| ==> FirstIndex(rows, k) == FirstIndex(init, k)
    ensures var init := rows[..|rows| - 1];
            FirstIndex(init, k) == |init| ==> FirstIndex(rows, k) >= |init|
  {
    if |rows| > 1 {
      assert rows[1..][..|rows| - 2] == rows[..|rows| - 1][1..];
      FirstIndexExtend(rows[1..], k);
    }
  }

  /** Every key of `dict(rows)` has a first pair in `rows`. */
  lemma KeyHasFirstIndex(rows: seq<seq<string>>, k: string)
    requires FromPairs(rows).Success?
    requires k in Keys(FromPairs(rows).value)
    ensures FirstIndex(rows, k) < |rows|
  {
    FromPairsLastWins(rows, k);
  }

  lemma {:induction false} EntryKeyInKeys(d: Dict, p: nat)
    requires p < |d|
    ensures d[p].key in Keys(d)
  {
    if p > 0 {
      EntryKeyInKeys(d[1..], p - 1);
    }
  }

  /** `dict(rows)` keeps its keys in the order of their first appearance. */
  lemma {:induction false} FromPairsInsertionOrder(rows: seq<seq<string>>, p: nat, q: nat)
    requires FromPairs(rows).Success?
    requires p < q < |FromPairs(rows).value|
    ensures var d := FromPairs(rows).value;
            FirstIndex(rows, d[p].key) < FirstIndex(rows, d[q].key)
  {
    var init := rows[..|rows| - 1];
    var last := rows[|rows| - 1];
    assert forall i :: 0 <= i < |init| ==> init[i] == rows[i];
    var prior := FromPairs(init).value;
    var d := FromPairs(rows).value;
    assert d == Put(prior, last[0], last[1]);
    EntryKeyInKeys(prior, p);
    KeyHasFirstIndex(init, prior[p].key);
    FirstIndexExtend(rows, prior[p].key);
    assert FirstIndex(rows, d[p].key) == FirstIndex(init, prior[p].key) < |init|;
    if q < |prior| {
      FromPairsInsertionOrder(init, p, q);
      EntryKeyInKeys(prior, q);
      KeyHasFirstIndex(init, prior[q].key);
      FirstIndexExtend(rows, prior[q].key);
    } else {
      FromPairsLastWins(init, last[0]);
      FirstIndexExtend(rows, last[0]);
    }
  }
}

=== FILE: listings.dfy ===
/** The two CSV listings fuzz.py reads back from the `quantum` client: the
    network listing that `coalesce` transposes into columns, and the DHCP
    agent listing that becomes an id-to-host dictionary, together with the
    agent selector that filters the latter. */
module Listings {
  import opened Wrappers
  import opened Text
  import opened Dicts

  /** `[line.split(",") for line in output.splitlines()[1:]]`: the data rows
      of a CSV listing, its header row dropped. */
  function CsvRows(output: string): (rows: seq<seq<string>>)
    ensures var lines := SplitLines(output);
            && |rows| == (if |lines| == 0 then 0 else |lines| - 1)
            && forall k :: 0 <= k < |rows| ==> rows[k] == Split(lines[k + 1], ',')
  {
    var lines := SplitLines(output);
    var body := if |lines| == 0 then [] else lines[1..];
    seq(|body|, k requires 0 <= k < |body| => Split(body[k], ','))
  }

  /** The length of the shortest row (0 when there are no rows). */
  function Width(rows: seq<seq<string>>): (w: nat)
    ensures forall k :: 0 <= k < |rows| ==> w <= |rows[k]|
    ensures |rows| > 0 ==> exists k :: 0 <= k < |rows| && w == |rows[k]|
    ensures |rows| == 0 ==> w == 0
  {
    if |rows| == 0 then 0
    else if |rows| == 1 then |rows[0]|
    else
      var rest := Width(rows[1..]);
      assert forall k :: 1 <= k < |rows| ==> rows[k] == rows[1..][k - 1];
      if |rows[0]| <= rest then |rows[0]| else rest
  }

  /** `list(zip(*rows))`: column c holds item c of every row, and there are as
      many columns as the shortest row has items. */
  function Transpose(rows: seq<seq<string>>): (cols: seq<seq<string>>)
    ensures |cols| == Width(rows)
    ensures forall c :: 0 <= c < |cols| ==> |cols[c]| == |rows|
    ensures forall c, k :: 0 <= c < |cols| && 0 <= k < |rows| ==> c < |rows[k]| && cols[c][k] == rows[k][c]
  {
    var w := Width(rows);
    seq(w, c requires 0 <= c < w =>
      seq(|rows|, k requires 0 <= k < |rows| => rows[k][c]))
  }

  /** Transposing twice gives back the rows cut to the shortest row's length;
      a listing whose rows all have the same positive length comes back whole. */
  lemma TransposeTwice(rows: seq<seq<string>>)
    requires Width(rows) > 0
    ensures |Transpose(Transpose(rows))| == |rows|
    ensures forall k :: 0 <= k < |rows| ==> Transpose(Transpose(rows))[k] == rows[k][..Width(rows)]
  {
    var cols := Transpose(rows);
    var back := Transpose(cols);
    assert Width(cols) == |rows| by {
      var c :| 0 <= c < |cols| && Width(cols) == |cols[c]|;
    }
    forall k | 0 <= k < |rows|
      ensures back[k] == rows[k][..Width(rows)]
    {
      assert forall c :: 0 <= c < Width(rows) ==> back[k][c] == rows[k][c];
    }
  }

  /** The `stats` that `coalesce` computes: the network listing (`name,subnets`
      rows) as columns. */
  function Coalesce(output: string): seq<seq<string>> {
    Transpose(CsvRows(output))
  }

  /** Renders a listing: a header line, then one `a,b` line per pair. */
  function Listing(header: string, pairs: seq<(string, string)>): string {
    UnSplitLines([header] + seq(|pairs|, k requires 0 <= k < |pairs| => pairs[k].0 + "," + pairs[k].1))
  }

  /** A field may appear in a listing when it holds no comma and no line break. */
  predicate Field(s: string) {
    ',' !in s && NoBreak(s)
  }

  /** Reading a listing back gives its pairs as two-item rows. */
  lemma CsvRowsOfListing(header: string, pairs: seq<(string, string)>)
    requires NoBreak(header)
    requires forall k :: 0 <= k < |pairs| ==> Field(pairs[k].0) && Field(pairs[k].1)
    ensures CsvRows(Listing(header, pairs)) == seq(|pairs|, k requires 0 <= k < |pairs| => [pairs[k].0, pairs[k].1])
  {
    var lines := [header] + seq(|pairs|, k requires 0 <= k < |pairs| => pairs[k].0 + "," + pairs[k].1);
    forall i | 0 <= i < |lines|
      ensures NoBreak(lines[i])
    {
      if i > 0 {
        var a, b := pairs[i - 1].0, pairs[i - 1].1;
        assert lines[i] == a + [','] + b;
        assert forall j :: 0 <= j < |lines[i]| ==> lines[i][j] == ',' || lines[i][j] in a || lines[i][j] in b;
      }
    }
    SplitLinesRoundTrip(lines);
    var rows := CsvRows(Listing(header, pairs));
    forall k | 0 <= k < |pairs|
      ensures rows[k] == [pairs[k].0, pairs[k].1]
    {
      var a, b := pairs[k].0, pairs[k].1;
      assert lines[k + 1] == Join([a, b], [',']);
      SplitJoin([a, b], ',');
    }
  }

  /** `coalesce` on a listing of `name,subnets` pairs yields the column of
      names and the column of subnets (and no columns for an empty listing). */
  lemma CoalesceOfListing(header: string, pairs: seq<(string, string)>)
    requires NoBreak(header)
    requires forall k :: 0 <= k < |pairs| ==> Field(pairs[k].0) && Field(pairs[k].1)
    ensures |pairs| == 0 ==> Coalesce(Listing(header, pairs)) == []
    ensures |pairs| > 0 ==>
              (Coalesce(Listing(header, pairs)) ==
                 [seq(|pairs|, k requires 0 <= k < |pairs| => pairs[k].0),
                  seq(|pairs|, k requires 0 <= k < |pairs| => pairs[k].1)])
  {
    CsvRowsOfListing(header, pairs);
    if |pairs| > 0 {
      TransposePairs(pairs);
    }
  }

  /** Transposing a non-empty list of two-item rows gives the two columns. */
  lemma TransposePairs(pairs: seq<(string, string)>)
    requires |pairs| > 0
    ensures Transpose(seq(|pairs|, k requires 0 <= k < |pairs| => [pairs[k].0, pairs[k].1])) ==
              [seq(|pairs|, k requires 0 <= k < |pairs| => pairs[k].0),
               seq(|pairs|, k requires 0 <= k < |pairs| => pairs[k].1)]
  {
    var rows := seq(|pairs|, k requires 0 <= k < |pairs| => [pairs[k].0, pairs[k].1]);
    assert Width(rows) == 2 by {
      var k :| 0 <= k < |rows| && Width(rows) == |rows[k]|;
    }
    var cols := Transpose(rows);
    assert cols[0] == seq(|pairs|, k requires 0 <= k < |pairs| => pairs[k].0);
    assert cols[1] == seq(|pairs|, k requires 0 <= k < |pairs| => pairs[k].1);
  }

  /** `dict(...)` over the agent listing: DHCP agent id to host. */
  function ParseAgents(output: string): Result<Dict, DictError> {
    FromPairs(CsvRows(output))
  }

  /** Reading an agent listing back maps every agent id to its host (the last
      one listed, should an id repeat). */
  lemma AgentsOfListing(header: string, pairs: seq<(string, string)>, id: string)
    requires NoBreak(header)
    requires forall k :: 0 <= k < |pairs| ==> Field(pairs[k].0) && Field(pairs[k].1)
    ensures ParseAgents(Listing(header, pairs)).Success?
    ensures Lookup(ParseAgents(Listing(header, pairs)).value, id) ==
              LastValue(seq(|pairs|, k requires 0 <= k < |pairs| => [pairs[k].0, pairs[k].1]), id)
  {
    CsvRowsOfListing(header, pairs);
    FromPairsLastWins(CsvRows(Listing(header, pairs)), id);
  }

  /** A line of the agent listing with other than exactly one comma makes
      `dict` raise. */
  lemma AgentRowMustBePair(output: string)
    ensures var lines := SplitLines(output);
            ParseAgents(output).Success? <==> forall i :: 1 <= i < |lines| ==> Count(lines[i], ',') == 1
  {
    var lines := SplitLines(output);
    var rows := CsvRows(output);
    if ParseAgents(output).Success? {
      forall i | 1 <= i < |lines|
        ensures Count(lines[i], ',') == 1
      {
        assert rows[i - 1] == Split(lines[i], ',');
      }
    } else {
      var n := ParseAgents(output).error.element;
      assert rows[n] == Split(lines[n + 1], ',');
    }
  }

  /** How `--node`, `--uuid` or neither narrows the agent listing. */
  datatype AgentFilter = AnyAgent | OnNode(host: string) | WithId(uuid: string)

  /** Python truthiness of an optional string from docopt: set and non-empty. */
  predicate Truthy(o: Option<string>) {
    o.Some? && |o.value| > 0
  }

  /** The choice behind the sort `key`: `--node` wins over `--uuid`, and an
      empty value counts as absent. */
  function ChooseFilter(node: Option<string>, uuid: Option<string>): (f: AgentFilter)
    ensures f.AnyAgent? <==> !Truthy(node) && !Truthy(uuid)
    ensures f.OnNode? ==> node.Some? && f.host == node.value && |f.host| > 0
    ensures f.WithId? ==> !Truthy(node) && f.uuid == uuid.value && |f.uuid| > 0
  {
    if Truthy(node) then OnNode(node.value)
    else if Truthy(uuid) then WithId(uuid.value)
    else AnyAgent
  }

  /** The agent sort `key`: the selector the agent listing is filtered by. */
  function Selector(f: AgentFilter): string {
    match f
    case AnyAgent => ""
    case OnNode(h) => "--node " + h
    case WithId(u) => "--id " + u
  }

  /** Reads a selector string back into the filter it expresses. */
  function ParseSelector(key: string): Option<AgentFilter> {
    if key == "" then Some(AnyAgent)
    else if StartsWith(key, "--node ") && |key| > 7 then Some(OnNode(key[7..]))
    else if StartsWith(key, "--id ") && |key| > 5 then Some(WithId(key[5..]))
    else None
  }

  /** The selector built from the options names exactly the chosen filter:
      empty when neither option is set, else `--node h` or `--id u`. */
  lemma SelectorRoundTrip(node: Option<string>, uuid: Option<string>)
    ensures var f := ChooseFilter(node, uuid);
            && ParseSelector(Selector(f)) == Some(f)
            && (Selector(f) == "" <==> f.AnyAgent?)
  {
    var f := ChooseFilter(node, uuid);
    match f
    case AnyAgent =>
    case OnNode(h) =>
      var key := "--node " + h;
      assert key[..7] == "--node ";
      assert key[7..] == h;
    case WithId(u) =>
      var key := "--id " + u;
      assert key[..5] == "--id ";
      assert key[5..] == u;
      assert !StartsWith(key, "--node ") by {
        assert key[2] == 'i';
      }
  }

  /** The `quantum agent-list` argument list for a filter. */
  function AgentListArgs(f: AgentFilter): seq<string> {
    ["quantum", "agent-list", "-f", "csv", "-c", "id", "-c", "host", "--quote", "none",
     "--agent_type=DHCP agent"]
    + match f
      case AnyAgent => []
      case OnNode(h) => ["--node", h]
      case WithId(u) => ["--id", u]
  }

  /** The agent listing carries the sort `key`: after the fixed arguments come
      the words of `key`, as `shlex.split` cuts the formatted command, for a
      host or id without spaces. */
  lemma AgentArgsCarrySelector(f: AgentFilter)
    requires f.OnNode? ==> ' ' !in f.host
    requires f.WithId? ==> ' ' !in f.uuid
    ensures |AgentListArgs(f)| >= 11
    ensures AgentListArgs(f)[11..] == (if Selector(f) == "" then [] else Split(Selector(f), ' '))
  {
    match f
    case AnyAgent =>
    case OnNode(h) =>
      assert Join(["--node", h], [' ']) == Selector(f);
      SplitJoin(["--node", h], ' ');
    case WithId(u) =>
      assert Join(["--id", u], [' ']) == Selector(f);
      SplitJoin(["--id", u], ' ');
  }

  /** Why looking up the agents stopped the run. */
  datatype AgentError = BadAgentRow(cause: DictError) | NoAgents

  /** The `agents` dictionary and the `Couldn't find any DHCP agents!` exit:
      the dictionary must not be empty when a selector was given; without a
      selector an empty listing is accepted. */
  function CheckAgents(f: AgentFilter, output: string): (r: Result<Dict, AgentError>)
    ensures r.Success? <==> ParseAgents(output).Success? && (f.AnyAgent? || |ParseAgents(output).value| > 0)
    ensures r.Success? ==> ParseAgents(output) == Success(r.value)
    ensures r.Success? && !f.AnyAgent? ==> |r.value| > 0
    ensures r == Failure(NoAgents) <==>
              ParseAgents(output).Success? && !f.AnyAgent? && |ParseAgents(output).value| == 0
    ensures ParseAgents(output).Failure? ==> r == Failure(BadAgentRow(ParseAgents(output).error))
  {
    match ParseAgents(output)
    case Failure(e) => Failure(BadAgentRow(e))
    case Success(agents) =>
      if Selector(f) != "" && |agents| == 0 then Failure(NoAgents) else Success(agents)
  }
}

=== FILE: session.dfy ===
/** One run of the fuzzer's entry point: read and resolve the credentials,
    look up the DHCP agents, then create networks, create subnets, list
    them, optionally sleep, and (unless kept) delete subnets then networks.
    The outside world — the `openrc` lines, the `quantum` client's answers
    and exit statuses, and whether sleeping for the delay succeeds — is a
    parameter, so a run is a pure function from options and world to the
    trace of phases it went through and how it ended. */
module Session {
  import opened Wrappers
  import opened Dicts
  import Text
  import Credentials
  import Commands
  import Listings

  /** The options the entry point reads after `docopt`. */
  datatype Options = Options(
    nets: int,
    encap: string,
    dev: string,
    mask: string,
    delay: string,
    keep: bool,
    node: Option<string>,
    uuid: Option<string>)

  /** The outside world: the lines of `openrc`; what `check_output` returns
      for an argument list under an environment (`None` when the command
      fails and `check_output` raises); the exit status `wait()` returns for
      a launched command; and whether `time.sleep(float(d))` returns for the
      delay text `d` (it raises when `float` rejects the text, and when
      `time.sleep` rejects the number: negative, NaN or too large). */
  datatype World = World(
    openrc: seq<string>,
    query: (Dict, Commands.Argv) -> Option<string>,
    exitOf: (Dict, Commands.Argv) -> int,
    sleeps: string -> bool)

  /** A phase the run went through, with what it observed. */
  datatype Phase =
    | CreatedNets(statuses: seq<int>)
    | CreatedSubs(statuses: seq<int>)
    | Converged(columns: seq<seq<string>>)
    | Slept(delay: string)
    | DeletedSubs(statuses: seq<int>)
    | DeletedNets(statuses: seq<int>)

  /** The kind of a phase, without its observations. */
  datatype Step = CreateNets | CreateSubs | Converge | Sleep | DeleteSubs | DeleteNets

  function StepOf(p: Phase): Step {
    match p
    case CreatedNets(_) => CreateNets
    case CreatedSubs(_) => CreateSubs
    case Converged(_) => Converge
    case Slept(_) => Sleep
    case DeletedSubs(_) => DeleteSubs
    case DeletedNets(_) => DeleteNets
  }

  function Steps(trace: seq<Phase>): (r: seq<Step>)
    ensures |r| == |trace|
    ensures forall i :: 0 <= i < |trace| ==> r[i] == StepOf(trace[i])
  {
    seq(|trace|, i requires 0 <= i < |trace| => StepOf(trace[i]))
  }

  /** Why a run stopped early; each is an exception escaping the entry point. */
  datatype Stop =
    | CredentialsMalformed(badLine: DictError)
    | CredentialsUnresolved(missing: Credentials.ResolveError)
    | AgentListFailed
    | AgentsRejected(reason: Listings.AgentError)
    | NetListFailed
    | SleepFailed(delay: string)

  datatype Outcome = Completed | Stopped(cause: Stop)

  datatype Report = Report(trace: seq<Phase>, outcome: Outcome)

  /** The argument list of the network listing `coalesce` reads. */
  const NetListArgs: Commands.Argv :=
    ["quantum", "net-list", "-f", "csv", "--quote", "none", "-c", "name", "-c", "subnets"]

  /** The phases a run goes through when nothing stops it: creation, the
      listing, the sleep when a delay is given, and the teardown unless kept. */
  function Plan(o: Options): seq<Step> {
    [CreateNets, CreateSubs, Converge]
    + (if o.delay != "" then [Sleep] else [])
    + (if o.keep then [] else [DeleteSubs, DeleteNets])
  }

  predicate IsPrefix(a: seq<Step>, b: seq<Step>) {
    |a| <= |b| && b[..|a|] == a
  }

  /** The two `creds` dictionaries: parse `openrc`, then substitute the
      references; either step may stop the run. */
  function LoadCredentials(openrc: seq<string>): (r: Result<Dict, Stop>)
    ensures r.Failure? ==> r.error.CredentialsMalformed? || r.error.CredentialsUnresolved?
    ensures (r.Failure? && r.error.CredentialsMalformed?) <==>
              !OneEqualsPerLine(openrc)
    ensures r.Failure? && r.error.CredentialsMalformed? ==>
              var rel := Credentials.Relevant(openrc);
              var n := r.error.badLine.element;
              && n < |rel| && Text.Count(rel[n], '=') >= 2
              && r.error.badLine.length == Text.Count(rel[n], '=') + 1
              && forall i :: 0 <= i < n ==> Text.Count(rel[i], '=') == 1
    ensures (r.Failure? && r.error.CredentialsUnresolved?) <==>
              Credentials.Parse(openrc).Success?
              && !Credentials.ReferencesDefined(Credentials.Parse(openrc).value)
    ensures r.Failure? && r.error.CredentialsUnresolved? ==>
              var raw := Credentials.Parse(openrc).value;
              var n := Credentials.FirstUnresolvable(raw, raw);
              && n < |raw| && Credentials.Reference(raw[n].value).Some?
              && Credentials.Reference(raw[n].value).value !in Keys(raw)
              && r.error.missing == Credentials.MissingKey(Credentials.Reference(raw[n].value).value)
    ensures r.Success? ==>
              && Credentials.Parse(openrc).Success?
              && var raw := Credentials.Parse(openrc).value;
              && |r.value| == |raw|
              && forall i :: 0 <= i < |raw| ==>
                   && r.value[i].key == raw[i].key
                   && (!Text.StartsWith(raw[i].value, "$") ==> r.value[i].value == raw[i].value)
                   && (Text.StartsWith(raw[i].value, "$") ==>
                         Entry(Credentials.Reference(raw[i].value).value, r.value[i].value) in raw)
  {
    Credentials.ParseFailsOnExtraEquals(openrc);
    match Credentials.Parse(openrc)
    case Failure(e) =>
      Credentials.ParseErrorNamesFirstBadLine(openrc);
      Failure(CredentialsMalformed(e))
    case Success(raw) =>
      Credentials.ResolveFailsOnMissingKey(raw);
      match Credentials.Resolve(raw)
      case Failure(e) => Failure(CredentialsUnresolved(e))
      case Success(creds) =>
        Credentials.ResolveKeepsKeys(raw);
        Success(creds)
  }

  /** Whether the options ask for particular DHCP agents (a non-empty
      `--node` or `--uuid`). */
  predicate AgentsAskedFor(o: Options) {
    Listings.Truthy(o.node) || Listings.Truthy(o.uuid)
  }

  /** The agent listing the options ask for, under `creds`. */
  function AgentListing(o: Options, creds: Dict, query: (Dict, Commands.Argv) -> Option<string>): Option<string> {
    query(creds, Listings.AgentListArgs(Listings.ChooseFilter(o.node, o.uuid)))
  }

  /** The agent check under the resolved credentials: it fails on the
      listing exactly when the listing command fails, and passes exactly when
      the listing parses and, if agents were asked for, is not empty. The
      agent dictionary is only checked, never used afterwards. */
  function AgentCheck(o: Options, creds: Dict, query: (Dict, Commands.Argv) -> Option<string>): (r: Result<Dict, Stop>)
    ensures var out := AgentListing(o, creds, query);
            && (r == Failure(AgentListFailed) <==> out.None?)
            && (r.Success? <==>
                  && out.Some?
                  && Listings.ParseAgents(out.value).Success?
                  && (AgentsAskedFor(o) ==> |Listings.ParseAgents(out.value).value| > 0))
            && (r.Success? ==> r.value == creds)
            && (r == Failure(AgentsRejected(Listings.NoAgents)) <==>
                  && out.Some?
                  && Listings.ParseAgents(out.value).Success?
                  && AgentsAskedFor(o)
                  && |Listings.ParseAgents(out.value).value| == 0)
            && (out.Some? && Listings.ParseAgents(out.value).Failure? ==>
                  r == Failure(AgentsRejected(Listings.BadAgentRow(Listings.ParseAgents(out.value).error))))
  {
    var f := Listings.ChooseFilter(o.node, o.uuid);
    match query(creds, Listings.AgentListArgs(f))
    case None => Failure(AgentListFailed)
    case Some(out) =>
      match Listings.CheckAgents(f, out)
      case Failure(e) => Failure(AgentsRejected(e))
      case Success(_) => Success(creds)
  }

  /** The entry point up to the agent check: the resolved credentials, or
      why setup stopped. Credentials are loaded before the agents are looked
      up, so a credentials error wins. */
  function Setup(o: Options, openrc: seq<string>, query: (Dict, Commands.Argv) -> Option<string>): (r: Result<Dict, Stop>)
    ensures LoadCredentials(openrc).Failure? ==> r == Failure(LoadCredentials(openrc).error)
    ensures LoadCredentials(openrc).Success? ==> r == AgentCheck(o, LoadCredentials(openrc).value, query)
    ensures r.Success? ==> LoadCredentials(openrc) == r
  {
    match LoadCredentials(openrc)
    case Failure(e) => Failure(e)
    case Success(creds) => AgentCheck(o, creds, query)
  }

  /** Every line of `openrc` holding `=` holds exactly one. */
  predicate OneEqualsPerLine(openrc: seq<string>) {
    forall x :: x in openrc && '=' in x ==> Text.Count(x, '=') == 1
  }

  /** Setup stated over `openrc` and the agent listing alone: it stops as
      malformed exactly when some `=` line holds more than one `=`; as
      unresolved exactly when the lines parse but a reference names no key;
      on the agent listing exactly when the credentials resolve but the
      listing command fails; with a bad row or `NoAgents` exactly when the
      listing does not parse or, agents being asked for, is empty; and it
      succeeds, with the resolved credentials, exactly when none of these
      happens. */
  lemma SetupOutcome(o: Options, openrc: seq<string>, query: (Dict, Commands.Argv) -> Option<string>)
    ensures OneEqualsPerLine(openrc) <==> Credentials.Parse(openrc).Success?
    ensures OneEqualsPerLine(openrc) ==>
              (Credentials.Resolve(Credentials.Parse(openrc).value).Success? <==>
                 Credentials.ReferencesDefined(Credentials.Parse(openrc).value))
    ensures var r := Setup(o, openrc, query);
            (r.Failure? && r.error.CredentialsMalformed?) <==> !OneEqualsPerLine(openrc)
    ensures var r := Setup(o, openrc, query);
            (r.Failure? && r.error.CredentialsUnresolved?) <==>
              OneEqualsPerLine(openrc) && !Credentials.ReferencesDefined(Credentials.Parse(openrc).value)
    ensures var r := Setup(o, openrc, query);
            OneEqualsPerLine(openrc) && Credentials.ReferencesDefined(Credentials.Parse(openrc).value) ==>
              var creds := Credentials.Resolve(Credentials.Parse(openrc).value).value;
              var out := AgentListing(o, creds, query);
              && (r == Failure(AgentListFailed) <==> out.None?)
              && (out.Some? && Listings.ParseAgents(out.value).Failure? ==>
                    r == Failure(AgentsRejected(Listings.BadAgentRow(Listings.ParseAgents(out.value).error))))
              && (r == Failure(AgentsRejected(Listings.NoAgents)) <==>
                    && out.Some?
                    && Listings.ParseAgents(out.value).Success?
                    && AgentsAskedFor(o)
                    && |Listings.ParseAgents(out.value).value| == 0)
              && (r.Success? ==> r.value == creds)
    ensures var r := Setup(o, openrc, query);
            r.Success? <==>
              && OneEqualsPerLine(openrc)
              && Credentials.ReferencesDefined(Credentials.Parse(openrc).value)
              && var out := AgentListing(o, Credentials.Resolve(Credentials.Parse(openrc).value).value, query);
              && out.Some?
              && Listings.ParseAgents(out.value).Success?
              && (AgentsAskedFor(o) ==> |Listings.ParseAgents(out.value).value| > 0)
  {
    Credentials.ParseFailsOnExtraEquals(openrc);
    if Credentials.Parse(openrc).Success? {
      var raw := Credentials.Parse(openrc).value;
      Credentials.ResolveFailsOnMissingKey(raw);
      if Credentials.Resolve(raw).Success? {
        assert LoadCredentials(openrc) == Success(Credentials.Resolve(raw).value);
      }
    }
  }

  /** The exit statuses of one batch, in index order, under `env`. */
  function Statuses(w: World, env: Dict, ops: seq<Commands.Op>): (r: seq<int>)
    ensures |r| == |ops|
    ensures forall k :: 0 <= k < |ops| ==> r[k] == w.exitOf(env, Commands.ArgsOf(ops[k]))
  {
    Commands.Batch(Commands.ArgLists(ops), a => w.exitOf(env, a))
  }

  /** The entry point after setup, as control flow: the steps a round takes
      and how it ends, given whether the network listing succeeded and
      whether sleeping for the delay did. The listing is read before the
      sleep, so a failed listing stops the round after creation. */
  function Course(o: Options, listed: bool, slept: bool): (c: (seq<Step>, Outcome))
    ensures IsPrefix(c.0, Plan(o))
    ensures c.1.Completed? <==> c.0 == Plan(o)
    ensures c.1.Completed? <==> listed && (o.delay == "" || slept)
    ensures |c.0| >= 2
    ensures !listed <==> c == ([CreateNets, CreateSubs], Stopped(NetListFailed))
    ensures c.1 == Stopped(SleepFailed(o.delay)) <==> listed && o.delay != "" && !slept
    ensures c.1 == Stopped(SleepFailed(o.delay)) ==> c.0 == [CreateNets, CreateSubs, Converge]
  {
    if !listed then ([CreateNets, CreateSubs], Stopped(NetListFailed))
    else if o.delay != "" && !slept then ([CreateNets, CreateSubs, Converge], Stopped(SleepFailed(o.delay)))
    else (Plan(o), Completed)
  }

  /** What a step observes when it runs under `env`, `listing` being the
      output of the network listing. */
  function PhaseFor(s: Step, o: Options, w: World, env: Dict, listing: string): (p: Phase)
    ensures StepOf(p) == s
  {
    match s
    case CreateNets => CreatedNets(Statuses(w, env, Commands.MakeNets(o.nets, o.encap, o.dev)))
    case CreateSubs => CreatedSubs(Statuses(w, env, Commands.MakeSubs(o.nets, o.mask)))
    case Converge => Converged(Listings.Coalesce(listing))
    case Sleep => Slept(o.delay)
    case DeleteSubs => DeletedSubs(Statuses(w, env, Commands.DelSubs(o.nets)))
    case DeleteNets => DeletedNets(Statuses(w, env, Commands.DelNets(o.nets)))
  }

  /** The output of the network listing (empty when it failed). */
  function ListingOf(w: World, env: Dict): string {
    var listing := w.query(env, NetListArgs);
    if listing.Some? then listing.value else ""
  }

  /** The provisioning round under the resolved credentials: it completes
      exactly when the network listing and the sleep (if any) succeed, and
      otherwise names which of the two failed. */
  function Round(o: Options, w: World, env: Dict): (r: Report)
    ensures IsPrefix(Steps(r.trace), Plan(o))
    ensures r.outcome.Completed? <==> Steps(r.trace) == Plan(o)
    ensures r.outcome.Completed? <==>
              w.query(env, NetListArgs).Some? && (o.delay == "" || w.sleeps(o.delay))
    ensures r.outcome == Stopped(NetListFailed) <==> w.query(env, NetListArgs).None?
    ensures r.outcome == Stopped(SleepFailed(o.delay)) <==>
              w.query(env, NetListArgs).Some? && o.delay != "" && !w.sleeps(o.delay)
    ensures r.outcome == Stopped(NetListFailed) ==> Steps(r.trace) == [CreateNets, CreateSubs]
    ensures r.outcome == Stopped(SleepFailed(o.delay)) ==> Steps(r.trace) == [CreateNets, CreateSubs, Converge]
  {
    RoundFollowsCourse(o, w, env);
    Follow(o, w, env)
  }

  /** What the phases of a round report: the creation phases always run and
      report every status in index order; the listing's columns appear only
      when the listing succeeded; a sleep appears only when it succeeded; each
      delete phase reports the statuses of its batch. */
  lemma RoundPhases(o: Options, w: World, env: Dict)
    ensures var t := Round(o, w, env).trace;
            && |t| >= 2
            && t[0] == CreatedNets(Statuses(w, env, Commands.MakeNets(o.nets, o.encap, o.dev)))
            && t[1] == CreatedSubs(Statuses(w, env, Commands.MakeSubs(o.nets, o.mask)))
    ensures var t := Round(o, w, env).trace;
            forall i :: 0 <= i < |t| ==>
              && (t[i].Converged? ==>
                    w.query(env, NetListArgs).Some?
                    && t[i].columns == Listings.Coalesce(w.query(env, NetListArgs).value))
              && (t[i].Slept? ==> t[i].delay == o.delay && w.sleeps(o.delay))
              && (t[i].DeletedSubs? ==> t[i].statuses == Statuses(w, env, Commands.DelSubs(o.nets)))
              && (t[i].DeletedNets? ==> t[i].statuses == Statuses(w, env, Commands.DelNets(o.nets)))
  {
    RoundFollowsCourse(o, w, env);
    var c := Course(o, w.query(env, NetListArgs).Some?, w.sleeps(o.delay));
    CourseSteps(o, w.query(env, NetListArgs).Some?, w.sleeps(o.delay));
  }

  /** Where each step can occur in a course. */
  lemma CourseSteps(o: Options, listed: bool, slept: bool)
    ensures var s := Course(o, listed, slept).0;
            && s[0] == CreateNets && s[1] == CreateSubs
            && (Converge in s ==> listed)
            && (Sleep in s ==> slept)
  {
  }

  /** The trace of the course the listing and the sleep dictate. */
  function Follow(o: Options, w: World, env: Dict): Report {
    var c := Course(o, w.query(env, NetListArgs).Some?, w.sleeps(o.delay));
    var out := ListingOf(w, env);
    Report(seq(|c.0|, i requires 0 <= i < |c.0| => PhaseFor(c.0[i], o, w, env, out)), c.1)
  }

  lemma RoundFollowsCourse(o: Options, w: World, env: Dict)
    ensures var r := Follow(o, w, env);
            var c := Course(o, w.query(env, NetListArgs).Some?, w.sleeps(o.delay));
            && (Steps(r.trace), r.outcome) == c
            && forall i :: 0 <= i < |r.trace| ==> r.trace[i] == PhaseFor(c.0[i], o, w, env, ListingOf(w, env))
  {
    var r := Follow(o, w, env);
    var c := Course(o, w.query(env, NetListArgs).Some?, w.sleeps(o.delay));
    assert Steps(r.trace) == c.0;
  }

  /** The whole entry point. Its phases always follow the plan in order, it
      completes exactly when setup, the network listing and the sleep (if
      any) all succeed, and nothing is created unless setup succeeded. */
  function Run(o: Options, w: World): (r: Report)
    ensures IsPrefix(Steps(r.trace), Plan(o))
    ensures r.outcome.Completed? <==> Steps(r.trace) == Plan(o)
    ensures r.outcome.Completed? <==>
              && Setup(o, w.openrc, w.query).Success?
              && w.query(Setup(o, w.openrc, w.query).value, NetListArgs).Some?
              && (o.delay == "" || w.sleeps(o.delay))
    ensures r.trace == [] <==> Setup(o, w.openrc, w.query).Failure?
    ensures Setup(o, w.openrc, w.query).Failure? ==> r.outcome == Stopped(Setup(o, w.openrc, w.query).error)
  {
    match Setup(o, w.openrc, w.query)
    case Failure(e) => Report([], Stopped(e))
    case Success(env) =>
      Round(o, w, env)
  }

  /** With `--keep` no delete phase ever runs. */
  lemma KeepNeverDeletes(o: Options, w: World)
    requires o.keep
    ensures DeleteSubs !in Steps(Run(o, w).trace) && DeleteNets !in Steps(Run(o, w).trace)
  {
    KeptPlanHasNoDeletes(Steps(Run(o, w).trace), o);
  }

  lemma KeptPlanHasNoDeletes(s: seq<Step>, o: Options)
    requires o.keep && IsPrefix(s, Plan(o))
    ensures DeleteSubs !in s && DeleteNets !in s
  {
    var p := Plan(o);
    assert p == [CreateNets, CreateSubs, Converge] + (if o.delay != "" then [Sleep] else []);
    assert forall i :: 0 <= i < |s| ==> s[i] == p[i];
  }

  /** Teardown runs only on a completed run: a run stopped after creating
      resources leaves them in place, whatever `--keep` says. */
  lemma StoppedRunSkipsTeardown(o: Options, w: World)
    requires Run(o, w).outcome.Stopped?
    ensures DeleteSubs !in Steps(Run(o, w).trace) && DeleteNets !in Steps(Run(o, w).trace)
  {
    if Setup(o, w.openrc, w.query).Success? {
      var env := Setup(o, w.openrc, w.query).value;
      RoundFollowsCourse(o, w, env);
      StoppedCourseSkipsTeardown(o, w.query(env, NetListArgs).Some?, w.sleeps(o.delay));
    }
  }

  lemma StoppedCourseSkipsTeardown(o: Options, listed: bool, slept: bool)
    requires Course(o, listed, slept).1.Stopped?
    ensures var s := Course(o, listed, slept).0;
            DeleteSubs !in s && DeleteNets !in s
  {
    var s := Course(o, listed, slept).0;
    assert s == [CreateNets, CreateSubs] || s == [CreateNets, CreateSubs, Converge];
  }

  /** A failed network listing after creation stops the run with the networks
      and subnets created and not deleted. */
  lemma NetListFailureLeaksResources(o: Options, w: World)
    requires Setup(o, w.openrc, w.query).Success?
    requires w.query(Setup(o, w.openrc, w.query).value, NetListArgs).None?
    ensures Steps(Run(o, w).trace) == [CreateNets, CreateSubs]
    ensures Run(o, w).outcome == Stopped(NetListFailed)
  {
  }

  /** A sleep that fails after the listing stops the run with the networks
      and subnets created, the listing read, and nothing deleted. */
  lemma SleepFailureLeaksResources(o: Options, w: World)
    requires Setup(o, w.openrc, w.query).Success?
    requires w.query(Setup(o, w.openrc, w.query).value, NetListArgs).Some?
    requires o.delay != "" && !w.sleeps(o.delay)
    ensures Steps(Run(o, w).trace) == [CreateNets, CreateSubs, Converge]
    ensures Run(o, w).outcome == Stopped(SleepFailed(o.delay))
  {
  }

  /** A completed run without `--keep` deletes subnets, then networks, once
      each, as its last two phases, after both creation phases. */
  lemma TeardownOrder(o: Options, w: World)
    requires Run(o, w).outcome.Completed? && !o.keep
    ensures var s := Steps(Run(o, w).trace);
            && |s| >= 5 && s[|s| - 2] == DeleteSubs && s[|s| - 1] == DeleteNets
            && s[0] == CreateNets && s[1] == CreateSubs
            && forall i :: 0 <= i < |s| - 2 ==> s[i] != DeleteSubs && s[i] != DeleteNets
  {
    PlanEndsWithTeardown(o);
  }

  lemma PlanEndsWithTeardown(o: Options)
    requires !o.keep
    ensures var s := Plan(o);
            && |s| >= 5 && s[|s| - 2] == DeleteSubs && s[|s| - 1] == DeleteNets
            && s[0] == CreateNets && s[1] == CreateSubs
            && forall i :: 0 <= i < |s| - 2 ==> s[i] != DeleteSubs && s[i] != DeleteNets
  {
  }

  /** The exit statuses of the batches never change the course of a run:
      a failing create is reported, not acted on. */
  lemma StatusesDoNotSteer(o: Options, w: World, exitOf: (Dict, Commands.Argv) -> int)
    ensures Steps(Run(o, w).trace) == Steps(Run(o, w.(exitOf := exitOf)).trace)
    ensures Run(o, w).outcome == Run(o, w.(exitOf := exitOf)).outcome
  {
    var w' := w.(exitOf := exitOf);
    assert w'.openrc == w.openrc && w'.query == w.query && w'.sleeps == w.sleeps;
  }

  /** The first phase reports, in index order, the status of creating
      network k+1 for each k, under the resolved credentials. */
  lemma CreationStatusesInIndexOrder(o: Options, w: World)
    requires Setup(o, w.openrc, w.query).Success?
    ensures var trace := Run(o, w).trace;
            var ops := Commands.MakeNets(o.nets, o.encap, o.dev);
            && trace[0].CreatedNets?
            && |trace[0].statuses| == (if o.nets < 0 then 0 else o.nets)
            && forall k :: 0 <= k < |ops| ==>
                 && Commands.Decode(Commands.ArgsOf(ops[k])) == Some(("net-create", k + 1))
                 && trace[0].statuses[k] == w.exitOf(Setup(o, w.openrc, w.query).value, Commands.ArgsOf(ops[k]))
  {
    Commands.MakeNetsOnePerIndex(o.nets, o.encap, o.dev);
  }
}

=== FILE: text.dfy ===
/** The handful of Python `str` operations the fuzzer relies on, with the exact
    semantics of CPython 3: `strip`, `lstrip(chars)`, `split(sep)`, `join`,
    `replace`, `splitlines`, `startswith` and `str(int)`. */
module Text {

  /** Python's `str.isspace` characters: what `str.strip()` removes. */
  const Whitespace: set<char> := {
    ' ', '\t', '\n', '\r', '\U{0B}', '\U{0C}', '\U{1C}', '\U{1D}', '\U{1E}', '\U{1F}',
    '\U{85}', '\U{A0}', '\U{1680}', '\U{2000}', '\U{2001}', '\U{2002}', '\U{2003}',
    '\U{2004}', '\U{2005}', '\U{2006}', '\U{2007}', '\U{2008}', '\U{2009}', '\U{200A}',
    '\U{2028}', '\U{2029}', '\U{202F}', '\U{205F}', '\U{3000}'
  }

  /** The line boundaries of Python's `str.splitlines()`; `\r\n` is one boundary. */
  predicate IsLineBreak(c: char) {
    || c == '\n' || c == '\r' || c == '\U{0B}' || c == '\U{0C}'
    || c == '\U{1C}' || c == '\U{1D}' || c == '\U{1E}'
    || c == '\U{85}' || c == '\U{2028}' || c == '\U{2029}'
  }

  predicate NoBreak(s: string) {
    forall i :: 0 <= i < |s| ==> !IsLineBreak(s[i])
  }

  predicate StartsWith(s: string, prefix: string) {
    |prefix| <= |s| && s[..|prefix|] == prefix
  }

  /** Python's `s.lstrip(chars)`: drops the longest prefix of `s` made of
      characters of the SET `chars` (not a prefix string). */
  function LStrip(s: string, chars: set<char>): (r: string)
    ensures |r| <= |s| && r == s[|s| - |r|..]
    ensures forall i :: 0 <= i < |s| - |r| ==> s[i] in chars
    ensures |r| > 0 ==> r[0] !in chars
  {
    if |s| > 0 && s[0] in chars then
      var r := LStrip(s[1..], chars);
      assert s[|s| - |r|..] == s[1..][|s| - 1 - |r|..];
      r
    else s
  }

  /** Python's `s.rstrip(chars)`: drops the longest suffix made of `chars`. */
  function RStrip(s: string, chars: set<char>): (r: string)
    ensures |r| <= |s| && r == s[..|r|]
    ensures forall i :: |r| <= i < |s| ==> s[i] in chars
    ensures |r| > 0 ==> r[|r| - 1] !in chars
  {
    if |s| > 0 && s[|s| - 1] in chars then RStrip(s[..|s| - 1], chars) else s
  }

  /** Stripping characters other than `c` keeps every `c`. */
  lemma {:induction false} LStripKeepsCount(s: string, chars: set<char>, c: char)
    requires c !in chars
    ensures Count(LStrip(s, chars), c) == Count(s, c)
  {
    if |s| > 0 && s[0] in chars {
      LStripKeepsCount(s[1..], chars, c);
    }
  }

  lemma {:induction false} RStripKeepsCount(s: string, chars: set<char>, c: char)
    requires c !in chars
    ensures Count(RStrip(s, chars), c) == Count(s, c)
  {
    if |s| > 0 && s[|s| - 1] in chars {
      RStripKeepsCount(s[..|s| - 1], chars, c);
      assert s == s[..|s| - 1] + [s[|s| - 1]];
      CountConcat(s[..|s| - 1], [s[|s| - 1]], c);
    }
  }

  /** Every character of `s` is in `chars`. */
  predicate AllIn(s: string, chars: set<char>) {
    forall i :: 0 <= i < |s| ==> s[i] in chars
  }

  /** Python's `s.strip(chars)`: the result neither starts nor ends with a
      character of `chars`. */
  function StripChars(s: string, chars: set<char>): (r: string)
    ensures |r| <= |s|
    ensures |r| > 0 ==> r[0] !in chars && r[|r| - 1] !in chars
  {
    RStrip(LStrip(s, chars), chars)
  }

  /** `s` is `r` with a run of `chars` of length `lead` before it and a run
      of `chars` after it. */
  predicate Surrounded(s: string, r: string, lead: int, chars: set<char>) {
    && 0 <= lead <= |s| - |r| && s[lead..lead + |r|] == r
    && AllIn(s[..lead], chars) && AllIn(s[lead + |r|..], chars)
  }

  /** What `s.strip(chars)` removed: `s` is its result between two runs of
      characters of `chars`. */
  lemma StripCharsBetween(s: string, chars: set<char>)
    ensures exists lead :: Surrounded(s, StripChars(s, chars), lead, chars)
  {
    StripCharsAt(s, chars);
  }

  /** The leading run `s.strip(chars)` removes is the one `lstrip` removes. */
  lemma StripCharsAt(s: string, chars: set<char>)
    ensures Surrounded(s, StripChars(s, chars), |s| - |LStrip(s, chars)|, chars)
  {
    var l := LStrip(s, chars);
    var r := RStrip(l, chars);
    assert r == StripChars(s, chars);
    var lead := |s| - |l|;
    assert s[lead..] == l && AllIn(s[..lead], chars) by {
      LStripDropped(s, chars);
    }
    assert l[..|r|] == r && AllIn(l[|r|..], chars) by {
      RStripDropped(l, chars);
    }
    SurroundedCompose(s, l, r, lead, chars);
  }

  /** A prefix of a suffix, with what lies around it made of `chars`. */
  lemma SurroundedCompose(s: string, l: string, r: string, lead: nat, chars: set<char>)
    requires lead <= |s| && s[lead..] == l && AllIn(s[..lead], chars)
    requires |r| <= |l| && l[..|r|] == r && AllIn(l[|r|..], chars)
    ensures Surrounded(s, r, lead, chars)
  {
    assert s[lead..lead + |r|] == r;
    assert s[lead + |r|..] == l[|r|..];
  }

  /** What `rstrip` drops is a run of its characters. */
  lemma RStripDropped(s: string, chars: set<char>)
    ensures var r := RStrip(s, chars);
            && s[..|r|] == r
            && AllIn(s[|r|..], chars)
  {
    var d := |RStrip(s, chars)|;
    forall m | 0 <= m < |s| - d
      ensures s[d..][m] in chars
    {
      assert s[d..][m] == s[d + m];
    }
  }

  /** `s` is `r` with, before it, a maximal run of `first` characters
      (ending at `i`) followed by a run of `second` characters (ending at
      `j`), and after it a run of `trail` characters. */
  predicate Peeled(s: string, r: string, i: int, j: int, first: set<char>, second: set<char>, trail: set<char>) {
    && 0 <= i <= j <= |s| - |r| && s[j..j + |r|] == r
    && AllIn(s[..i], first) && (i < |s| ==> s[i] !in first)
    && AllIn(s[i..j], second) && AllIn(s[j + |r|..], trail)
  }

  /** What `s.strip(chars).lstrip(more)` removed, in order: first the whole
      leading run of `chars`, then a run of `more`; and a trailing run of
      `chars`. */
  lemma StripThenLStrip(s: string, chars: set<char>, more: set<char>)
    ensures exists i, j :: Peeled(s, LStrip(StripChars(s, chars), more), i, j, chars, more, chars)
  {
    var t := StripChars(s, chars);
    var r := LStrip(t, more);
    var l := LStrip(s, chars);
    var lead := |s| - |l|;
    var d := |t| - |r|;
    assert Surrounded(s, t, lead, chars) by {
      StripCharsAt(s, chars);
    }
    assert lead < |s| ==> s[lead] !in chars by {
      LStripDropped(s, chars);
      if lead < |s| {
        assert s[lead] == l[0];
      }
    }
    assert t[d..] == r && AllIn(t[..d], more) by {
      LStripDropped(t, more);
    }
    PeeledCompose(s, t, r, lead, d, chars, more);
  }

  /** What `lstrip` drops is a run of its characters. */
  lemma LStripDropped(s: string, chars: set<char>)
    ensures var r := LStrip(s, chars);
            && s[|s| - |r|..] == r
            && AllIn(s[..|s| - |r|], chars)
  {
    var d := |s| - |LStrip(s, chars)|;
    forall m | 0 <= m < d
      ensures s[..d][m] in chars
    {
      assert s[..d][m] == s[m];
    }
  }

  /** A slice of a slice, with the runs around each, is a slice. */
  lemma PeeledCompose(s: string, t: string, r: string, lead: nat, d: nat, chars: set<char>, more: set<char>)
    requires Surrounded(s, t, lead, chars) && (lead < |s| ==> s[lead] !in chars)
    requires d <= |t| && t[d..] == r && AllIn(t[..d], more)
    ensures Peeled(s, r, lead, lead + d, chars, more, chars)
  {
    var j := lead + d;
    assert s[lead..j] == t[..d];
    assert s[j..j + |r|] == r;
    assert s[j + |r|..] == s[lead + |t|..];
  }

  /** `lstrip` removes exactly a leading run of its characters. */
  lemma {:induction false} LStripRun(a: string, b: string, chars: set<char>)
    requires AllIn(a, chars)
    requires |b| > 0 ==> b[0] !in chars
    ensures LStrip(a + b, chars) == b
  {
    if |a| > 0 {
      assert (a + b)[1..] == a[1..] + b;
      LStripRun(a[1..], b, chars);
    } else {
      assert a + b == b;
    }
  }

  /** `rstrip` removes exactly a trailing run of its characters. */
  lemma {:induction false} RStripRun(a: string, b: string, chars: set<char>)
    requires AllIn(b, chars)
    requires |a| > 0 ==> a[|a| - 1] !in chars
    ensures RStrip(a + b, chars) == a
  {
    if |b| > 0 {
      var b' := b[..|b| - 1];
      assert (a + b)[..|a + b| - 1] == a + b';
      RStripRun(a, b', chars);
    } else {
      assert a + b == a;
    }
  }

  /** Python's `s.strip()`, which strips whitespace. */
  function Strip(s: string): string {
    StripChars(s, Whitespace)
  }

  /** Number of occurrences of `c` in `s` (Python's `s.count(c)`). */
  function Count(s: string, c: char): (n: nat)
    ensures n <= |s|
    ensures n == 0 <==> c !in s
  {
    if |s| == 0 then 0
    else
      assert c in s <==> s[0] == c || c in s[1..] by {
        assert s == [s[0]] + s[1..];
      }
      (if s[0] == c then 1 else 0) + Count(s[1..], c)
  }

  lemma {:induction false} CountConcat(a: string, b: string, c: char)
    ensures Count(a + b, c) == Count(a, c) + Count(b, c)
  {
    if |a| > 0 {
      assert (a + b)[1..] == a[1..] + b;
      CountConcat(a[1..], b, c);
    } else {
      assert a + b == b;
    }
  }

  /** Python's `s.split(sep)` for a one-character separator: the pieces between
      consecutive separators, always one more than there are separators. */
  function Split(s: string, sep: char): (r: seq<string>)
    ensures |r| == Count(s, sep) + 1
    ensures forall i :: 0 <= i < |r| ==> sep !in r[i]
  {
    if |s| == 0 then [""]
    else
      var rest := Split(s[1..], sep);
      if s[0] == sep then [""] + rest
      else [[s[0]] + rest[0]] + rest[1..]
  }

  /** Python's `glue.join(parts)`. */
  function Join(parts: seq<string>, glue: string): string {
    if |parts| == 0 then ""
    else if |parts| == 1 then parts[0]
    else parts[0] + glue + Join(parts[1..], glue)
  }

  /** Extending the first piece extends the joined string by the same prefix. */
  lemma JoinExtendFirst(x: string, parts: seq<string>, glue: string)
    requires |parts| > 0
    ensures Join([x + parts[0]] + parts[1..], glue) == x + Join(parts, glue)
  {
    var ps := [x + parts[0]] + parts[1..];
    if |parts| > 1 {
      assert ps[1..] == parts[1..];
    }
  }

  /** Joining the pieces of a split with the separator gives back the string. */
  lemma {:induction false} JoinSplit(s: string, sep: char)
    ensures Join(Split(s, sep), [sep]) == s
  {
    if |s| > 0 {
      var rest := Split(s[1..], sep);
      JoinSplit(s[1..], sep);
      if s[0] == sep {
        assert ([""] + rest)[1..] == rest;
        assert s == [sep] + s[1..];
      } else {
        JoinExtendFirst([s[0]], rest, [sep]);
        assert s == [s[0]] + s[1..];
      }
    }
  }

  /** Splitting a string whose head holds no separator extends the first piece. */
  lemma {:induction false} SplitPrefix(p: string, t: string, sep: char)
    requires sep !in p
    ensures Split(p + t, sep) == [p + Split(t, sep)[0]] + Split(t, sep)[1..]
  {
    if |p| > 0 {
      assert (p + t)[1..] == p[1..] + t;
      assert (p + t)[0] == p[0];
      SplitPrefix(p[1..], t, sep);
      assert [p[0]] + (p[1..] + Split(t, sep)[0]) == p + Split(t, sep)[0];
    } else {
      var pieces := Split(t, sep);
      assert p + t == t;
      assert p + pieces[0] == pieces[0];
      assert pieces == [pieces[0]] + pieces[1..];
    }
  }

  /** Splitting a join of separator-free pieces gives back the pieces. */
  lemma {:induction false} SplitJoin(parts: seq<string>, sep: char)
    requires |parts| > 0
    requires forall i :: 0 <= i < |parts| ==> sep !in parts[i]
    ensures Split(Join(parts, [sep]), sep) == parts
  {
    if |parts| == 1 {
      SplitPrefix(parts[0], "", sep);
      assert parts[0] + "" == parts[0];
    } else {
      var tail := Join(parts[1..], [sep]);
      SplitJoin(parts[1..], sep);
      assert parts[0] + [sep] + tail == parts[0] + ([sep] + tail);
      assert ([sep] + tail)[1..] == tail;
      assert Split([sep] + tail, sep) == [""] + Split(tail, sep);
      SplitPrefix(parts[0], [sep] + tail, sep);
      var pieces := Split([sep] + tail, sep);
      assert pieces[0] == "" && pieces[1..] == parts[1..];
      assert parts[0] + "" == parts[0];
      assert Join(parts, [sep]) == parts[0] + ([sep] + tail);
      assert parts == [parts[0]] + parts[1..];
    }
  }

  /** Python's `s.replace(c, rep)` for a one-character pattern: every `c`
      becomes `rep` and every other character stays where it was. */
  function Replace(s: string, c: char, rep: string): (r: string)
    ensures c !in rep ==> c !in r
    ensures c !in s ==> r == s
  {
    if |s| == 0 then ""
    else (if s[0] == c then rep else [s[0]]) + Replace(s[1..], c, rep)
  }

  /** `s.replace(c, rep)` is `rep.join(s.split(c))`. */
  lemma {:induction false} ReplaceIsJoinOfSplit(s: string, c: char, rep: string)
    ensures Replace(s, c, rep) == Join(Split(s, c), rep)
  {
    if |s| > 0 {
      var rest := Split(s[1..], c);
      ReplaceIsJoinOfSplit(s[1..], c, rep);
      if s[0] == c {
        assert ([""] + rest)[1..] == rest;
      } else {
        JoinExtendFirst([s[0]], rest, rep);
      }
    }
  }

  /** Replacement distributes over concatenation. */
  lemma {:induction false} ReplaceConcat(a: string, b: string, c: char, rep: string)
    ensures Replace(a + b, c, rep) == Replace(a, c, rep) + Replace(b, c, rep)
  {
    if |a| > 0 {
      assert (a + b)[1..] == a[1..] + b;
      assert (a + b)[0] == a[0];
      ReplaceConcat(a[1..], b, c, rep);
    } else {
      assert a + b == b;
    }
  }

  predicate IsDigit(c: char) {
    '0' <= c <= '9'
  }

  predicate AllDigits(s: string) {
    forall i :: 0 <= i < |s| ==> IsDigit(s[i])
  }

  function DigitChar(d: nat): (c: char)
    requires d < 10
    ensures IsDigit(c) && c as int - '0' as int == d
  {
    ('0' as int + d) as char
  }

  /** Python's `str(n)` for a non-negative integer: decimal digits, no leading zero. */
  function Decimal(n: nat): (r: string)
    ensures |r| > 0 && AllDigits(r)
    ensures r[0] == '0' ==> n == 0 && r == "0"
  {
    if n < 10 then [DigitChar(n)] else Decimal(n / 10) + [DigitChar(n % 10)]
  }

  /** The number a string of decimal digits denotes (Python's `int(s)`). */
  function DigitsValue(s: string): nat
    requires AllDigits(s)
  {
    if |s| == 0 then 0
    else DigitsValue(s[..|s| - 1]) * 10 + (s[|s| - 1] as int - '0' as int)
  }

  /** Reading back the decimal form of `n` gives `n`. */
  lemma {:induction false} DecimalRoundTrip(n: nat)
    ensures DigitsValue(Decimal(n)) == n
  {
    if n >= 10 {
      DecimalRoundTrip(n / 10);
      var r := Decimal(n);
      assert r[..|r| - 1] == Decimal(n / 10);
    }
  }

  /** Distinct numbers have distinct decimal forms. */
  lemma DecimalInjective(m: nat, n: nat)
    requires Decimal(m) == Decimal(n)
    ensures m == n
  {
    DecimalRoundTrip(m);
    DecimalRoundTrip(n);
  }

  /** Python's `s.splitlines()`: the lines of `s` without their boundaries; a
      final boundary does not start an extra empty line. */
  function SplitLines(s: string): (r: seq<string>)
    ensures forall i :: 0 <= i < |r| ==> NoBreak(r[i])
    ensures NoBreak(s) && |s| > 0 ==> r == [s]
    ensures |s| == 0 ==> r == []
  {
    assert "" + s == s;
    LinesFrom(s, "")
  }

  /** The lines of `s` when the line under construction so far is `cur`. */
  function LinesFrom(s: string, cur: string): (r: seq<string>)
    requires NoBreak(cur)
    ensures forall i :: 0 <= i < |r| ==> NoBreak(r[i])
    ensures NoBreak(s) && |cur + s| > 0 ==> r == [cur + s]
    ensures |s| == 0 && |cur| == 0 ==> r == []
    decreases |s|
  {
    if |s| == 0 then
      assert cur + s == cur;
      if |cur| == 0 then [] else [cur]
    else if s[0] == '\r' && |s| >= 2 && s[1] == '\n' then [cur] + LinesFrom(s[2..], "")
    else if IsLineBreak(s[0]) then [cur] + LinesFrom(s[1..], "")
    else
      assert cur + s == (cur + [s[0]]) + s[1..];
      LinesFrom(s[1..], cur + [s[0]])
  }

  /** Each line followed by `\n`, as a program writes a listing. */
  function UnSplitLines(lines: seq<string>): string {
    if |lines| == 0 then "" else lines[0] + "\n" + UnSplitLines(lines[1..])
  }

  lemma {:induction false} LinesFromLine(l: string, t: string, cur: string)
    requires NoBreak(cur) && NoBreak(l)
    ensures LinesFrom(l + "\n" + t, cur) == [cur + l] + LinesFrom(t, "")
    decreases |l|
  {
    var s := l + "\n" + t;
    if |l| == 0 {
      assert s == "\n" + t;
      assert s[1..] == t;
      assert cur + l == cur;
    } else {
      assert s[0] == l[0];
      assert s[1..] == l[1..] + "\n" + t;
      assert !IsLineBreak(l[0]);
      LinesFromLine(l[1..], t, cur + [l[0]]);
      assert cur + [l[0]] + l[1..] == cur + l;
    }
  }

  /** Splitting a `\n`-terminated listing of break-free lines gives back the lines. */
  lemma {:induction false} SplitLinesRoundTrip(lines: seq<string>)
    requires forall i :: 0 <= i < |lines| ==> NoBreak(lines[i])
    ensures SplitLines(UnSplitLines(lines)) == lines
  {
    if |lines| > 0 {
      SplitLinesRoundTrip(lines[1..]);
      LinesFromLine(lines[0], UnSplitLines(lines[1..]), "");
      assert "" + lines[0] == lines[0];
      assert lines == [lines[0]] + lines[1..];
    }
  }
}

=== FILE: wrappers.dfy ===
/** The two wrappers shared by the whole model: `Option` for a value that may
    be absent, `Result` for a computation that may raise. */
module Wrappers {

  datatype Option<+T> = None | Some(value: T)

  /** The outcome of a Python expression that either yields a value or raises. */
  datatype Result<+R, +E> = Success(value: R) | Failure(error: E)
}
